=== FILE: README.md ===
# GQL dynamic product view, modelled in Dafny

GQL is a small GraphQL service. Its products carry an opaque JSON payload column, `Data`. A configuration file, `productview-config.json`, holds a list of dynamic field definitions, each with a `name`, a `type` and a `jsonPath`. Two things are built from that list:

- **The SQLite view `ProductsView`.** `ViewManager.RecreateProductsViewAsync` drops the view and creates it again. Its select list is `Id`, then one `json_extract(Data, '$.<path>') as <Name>` column per definition, then `Data`, `CreatedAt` and `UpdatedAt`. The column is wrapped in `CAST(... AS REAL)` for `Decimal` and `Float` fields.
- **The GraphQL object type `ProductView`.** `ProductViewTypeModule` builds it with `id`, then `data`, then one field per definition. Each field's resolver pulls the value out of the payload with a lenient extractor. When the configuration file changes, the module reloads the list, rebuilds the view and raises `TypesChanged`.

`Product` also exposes three fixed lookups into the payload: `Name`, `Description` and `Price`.

The modules follow the program's structure:

| module | file | models |
|---|---|---|
| `Wrappers` | wrappers.dfy | `Option`, the .NET exception kinds that matter here, `Result` and `Outcome` |
| `Json` | json.dfy | the JSON tree, plus `JsonElement.TryGetProperty` and `GetString` |
| `Text` | text.dfy | `Replace("$.", "")`, ASCII case folding and `string.Join` |
| `Lists` | lists.dfy | element-wise mapping of a sequence, which both building loops follow |
| `Config` | config.dfy | `ProductViewConfig` and `DynamicField`, their defaults, their wire keys, and case-insensitive binding by `JsonSerializer` |
| `Models` | models.dfy | `Product`, with its `Name`, `Description` and `Price` |
| `ViewManager` | view_manager.dfy | the select-list loop, the SQL text, a `Database` class that logs statements and holds the current view, and the drop-then-create rebuild |
| `ProductViewTypeModule` | type_module.dfy | `ExtractJsonValue`, the tag switch, the resolvers, the `CreateTypesAsync` loop, and a `TypeModule` class for the reload handler |
| `ReadPaths` | read_paths.dfy | a simplified `json_extract` walk that compares the view's read of a field with the resolver's read |

### How the .NET behaviour is modelled

- **Property lookup.** `TryGetProperty` is ordinal and case-sensitive. When a key repeats, it finds the last occurrence. On a non-object it throws `InvalidOperationException`.
- **GetString.** It returns the text of a string and null for a JSON null. Any other kind throws. So `Name` and `Description` are errors, not null, when the payload is not an object or the property is neither a string nor null.
- **`Replace("$.", "")`.** It is one left-to-right pass. `"$$.."` becomes `"$."`, which still contains the marker.
- **Config binding.** `PropertyNameCaseInsensitive = true` is modelled with ASCII case folding. Binding starts from the record defaults, skips unknown keys and lets a later duplicate win. A top-level JSON null gives `null`, which `?? new ProductViewConfig()` replaces with the empty configuration.
- **Numbers** are kept as written, as a mantissa and a decimal scale. `Deserialize<int?>` needs scale 0 and the Int32 range. `Deserialize<decimal?>` accepts any number. `Deserialize<string>` accepts strings, `Deserialize<bool?>` booleans, and `Deserialize<List<string>>` arrays of strings or nulls. JSON null gives `default` for every target.
- **The file read.** Reading and parsing the file is an input of type `Result<Json>`. `OnConfigFileChanged` and `RecreateProductsViewAsync` each read the file on their own (`ProductViewTypeModule.cs:43`, `ViewManager.cs:21`), so they take two separate inputs, `read` and `viewRead`.
- **SQLite.** The database is a `Database` object. `accepts` is its verdict on each statement's text. `CREATE VIEW` also fails while a view with the same name exists.
- **Exceptions.** Each thrown exception is an `Err`. The reload handler's catch-all is an early return that leaves the state as it was at the throw.

Behaviour the model keeps as the code has it:

- The rebuild is not atomic: `DROP` runs before `CREATE`.
- Duplicate field names are not rejected.
- A failed rebuild leaves the new configuration installed.
- The view and the type may be built from two different reads of the file.

## Model

| member | source | states |
|---|---|---|
| Json.Lookup | GQL/Models/Product.cs:12 | the lookup is None exactly when no property has the key; otherwise it returns the value of an occurrence of the key that has no later occurrence |
| Json.TryGetProperty | GQL/GraphQL/ProductViewTypeModule.cs:178 | the lookup throws exactly when the element is not an object; otherwise it gives the last match of the key |
| Json.GetString | GQL/Models/Product.cs:12-15 | succeeds exactly on strings and nulls: the text of a string, null for a JSON null |
| Text.StripRoot | GQL/Data/ViewManager.cs:43 | removing the marker never lengthens a path (how it acts on joined paths is `StripRootConcat`) |
| Text.StripRootConcat | GQL/Data/ViewManager.cs:43 | a marker between two paths is removed and each side is processed on its own: the result on `a + "$." + b` is the result on `a` followed by the result on `b` |
| Text.StripRootWithoutMarker | GQL/Data/ViewManager.cs:43 | a path without "$." is left unchanged |
| Text.StripRootLeading | GQL/GraphQL/ProductViewTypeModule.cs:176 | a leading "$." is dropped and the rest is processed in the same way |
| Text.StripRootInside | GQL/GraphQL/ProductViewTypeModule.cs:176 | worked cases of `StripRootConcat`: an occurrence inside the path is removed ("a$.b" becomes "ab"), and dots of nested paths stay ("$.a.b" becomes "a.b") |
| Text.StripRootSinglePass | GQL/Data/ViewManager.cs:43 | one pass only: "$$.." becomes "$.", which still contains the marker |
| Text.JoinEnds | GQL/Data/ViewManager.cs:58 | a joined non-empty list starts with its first value and ends with its last value |
| Text.JoinAppend | GQL/Data/ViewManager.cs:58 | joining two non-empty lists one after the other gives the two joined texts with exactly one separator between them |
| Text.JoinSnoc | GQL/Data/ViewManager.cs:58 | one more value adds the separator and that value at the end of the joined text |
| Lists.MappedAt | GQL/Data/ViewManager.cs:33-49 | one output per input, in order, each the image of the input at the same position |
| Lists.MappedStep | GQL/GraphQL/ProductViewTypeModule.cs:91-95 | one more loop iteration appends exactly the image of the next definition |
| Config.DeserializeConfig | GQL/GraphQL/ProductViewConfig.cs:5-21 | a JSON null gives null; any kind other than an object is a JsonException; an object binds exactly when every `dynamicFields` entry (matched ignoring case) binds as a list; every failure is a JsonException |
| Config.BindFieldList | GQL/GraphQL/ProductViewConfig.cs:8 | a list binds exactly from an array whose every element binds as a definition; every failure is a JsonException |
| Config.BindFields | GQL/GraphQL/ProductViewConfig.cs:8 | the list binds exactly when every element binds; it then holds, in order, one definition per element, each the binding of that element; every failure is a JsonException |
| Config.BindField | GQL/GraphQL/ProductViewConfig.cs:11-21 | a definition binds exactly from an object in which every `name`, `type` or `jsonPath` key (matched ignoring case) holds a string; every failure is a JsonException |
| Config.FieldPropsOutcome | GQL/GraphQL/ProductViewConfig.cs:11-21 | binding a definition's properties from any starting definition fails exactly when a wire key holds a non-string, and then with a JsonException |
| Config.ConfigPropsOutcome | GQL/GraphQL/ProductViewConfig.cs:7-8 | binding the configuration's properties fails exactly when some `dynamicFields` entry does not bind as a list, and then with a JsonException |
| Config.LoadConfig | GQL/Data/ViewManager.cs:21-25 | a read or parse failure propagates unchanged; a JSON null becomes the empty configuration (`?? new`); success implies the document was null or an object, and from an object gives the bound configuration; an object loads exactly when every `dynamicFields` entry binds; a binding failure is a JsonException |
| Config.WireKeysDistinct | GQL/GraphQL/ProductViewConfig.cs:7-19 | no two of the four wire keys match even when case is ignored (all six pairs) |
| Config.FieldRoundTrip | GQL/GraphQL/ProductViewConfig.cs:11-21 | binding the JSON form of a definition under `name`, `type` and `jsonPath` gives back that definition |
| Config.FieldsRoundTrip | GQL/GraphQL/ProductViewConfig.cs:8 | the same for a whole list, in order |
| Config.ConfigRoundTrip | GQL/GraphQL/ProductViewConfig.cs:5-9 | encoding a configuration under `dynamicFields` and loading it gives back the same configuration |
| Config.BindConfigRoundTrip | GQL/GraphQL/ProductViewConfig.cs:7-8 | binding the encoded properties from the empty default gives back the configuration |
| Config.MissingListIsEmpty | GQL/GraphQL/ProductViewConfig.cs:8 | an object without `dynamicFields`, and a JSON null, load as the configuration with zero dynamic fields |
| Config.SkipsUnknownConfigKeys | GQL/GraphQL/ProductViewConfig.cs:7-8 | a run of keys other than `dynamicFields` leaves the configuration unchanged; with `BindConfigAppend` such keys are skipped wherever they stand in the object |
| Config.AbsentKeysGiveDefaults | GQL/GraphQL/ProductViewConfig.cs:13-20 | a definition object without `name`, `type` or `jsonPath` binds to three empty strings |
| Config.SkipsUnknownFieldKeys | GQL/GraphQL/ProductViewConfig.cs:11-21 | a run of unknown keys in a definition leaves it unchanged; with `BindFieldPropsAppend` such keys are skipped wherever they stand, before or after wire keys |
| Config.KeysMatchIgnoringCase | GQL/Data/ViewManager.cs:22-25 | "NAME", "Type" and "JSONPATH" bind to the three properties |
| Config.KeyBindsIgnoringCase | GQL/Data/ViewManager.cs:22-25 | any key equal to `name`, `type` or `jsonPath` up to ASCII case binds a string to that property and leaves the other two unchanged |
| Config.BindFieldPropsAppend | GQL/GraphQL/ProductViewConfig.cs:11-21 | a definition object binds in one left-to-right pass: the rest of the object continues from what its first part bound, and a failure in the first part is final |
| Config.BindConfigAppend | GQL/GraphQL/ProductViewConfig.cs:7-8 | the configuration object binds in the same left-to-right pass |
| Config.ListKeyBindsIgnoringCase | GQL/Data/ViewManager.cs:22-25 | any key equal to `dynamicFields` up to ASCII case replaces the list with the one its value binds |
| Config.LaterNameWins | GQL/GraphQL/ProductViewConfig.cs:13-14 | of two `name` keys, in any letter case, the later one gives the name |
| Config.LaterListWins | GQL/GraphQL/ProductViewConfig.cs:7-8 | of two `dynamicFields` keys, in any letter case, the later list is the one bound |
| Config.MalformedListRejected | GQL/GraphQL/ProductViewTypeModule.cs:44-47 | a `dynamicFields` entry that is not an array, holds a non-object, or holds a definition with a non-string `name`, `type` or `jsonPath` makes loading fail with a JsonException |
| Models.StringProperty | GQL/Models/Product.cs:12-15 | throws exactly when the payload is not an object or the value is neither a string nor null; gives the text of a string value; null without a payload |
| Models.Name | GQL/Models/Product.cs:12 | null when there is no payload, no `name` or a JSON null there; the string's text exactly when `name` is a string; an error exactly when the payload is not an object or `name` is another kind |
| Models.Description | GQL/Models/Product.cs:15 | the same for `description` |
| Models.Price | GQL/Models/Product.cs:18 | present exactly when the payload is an object whose `price` is a JSON number, and then equal to that number; an error only when the payload is not an object |
| ViewManager.SqlType | GQL/Data/ViewManager.cs:35-41 | REAL exactly for Decimal and Float, INTEGER exactly for Int and Boolean, TEXT exactly for every other tag |
| ViewManager.ViewPathForms | GQL/Data/ViewManager.cs:43-46 | a declared path gives the same SQL path with or without its leading "$."; a path without the marker only gains the "$." prefix; a marker inside a path is removed and both sides are kept |
| ViewManager.ColumnExprForm | GQL/Data/ViewManager.cs:43-46 | Decimal and Float columns are `CAST(json_extract(Data, '<path>') AS REAL)`; every other column is the bare `json_extract(Data, '<path>')` |
| ViewManager.SelectEntry | GQL/Data/ViewManager.cs:48 | every select entry ends in " as " followed by the field's name |
| ViewManager.SelectEntryForm | GQL/Data/ViewManager.cs:43-48 | the entry of a Decimal or Float field is `CAST(json_extract(Data, '<path>') AS REAL) as <Name>`, that of every other field `json_extract(Data, '<path>') as <Name>`, with the path of `ViewPathForms` |
| ViewManager.SelectList | GQL/Data/ViewManager.cs:31-53 | the list has four more entries than there are definitions; `Id` comes first; entry i+1 is definition i's entry, in order; the list ends with Data, CreatedAt, UpdatedAt |
| ViewManager.EmptyConfigView | GQL/Data/ViewManager.cs:22-25 | with zero dynamic fields the view is exactly Id, Data, CreatedAt, UpdatedAt |
| ViewManager.DefaultTypeIsNotCast | GQL/Data/ViewManager.cs:35-46 | a field with the default empty type is TEXT and is projected without a cast |
| ViewManager.BuildSelectFields | GQL/Data/ViewManager.cs:31-53 | the loop's list is the select list of the configured definitions |
| ViewManager.Apply | GQL/Data/ViewManager.cs:28 | an accepted DROP removes the view and an accepted CREATE installs its select list; a rejected statement is a SqliteException and leaves the view unchanged |
| ViewManager.Database.Execute | GQL/Data/ViewManager.cs:62 | the statement's text is appended to the log whether or not it succeeds, and the view is updated as the engine decides |
| ViewManager.RecreateProductsView | GQL/Data/ViewManager.cs:18-65 | the outcome, the statements issued and the view left behind are those of load, then drop, then build, then create, stopping at the first failure |
| ViewManager.RecreateLoadFailure | GQL/Data/ViewManager.cs:21-25 | a configuration that cannot be loaded issues no statement and leaves the view |
| ViewManager.DropBeforeCreate | GQL/Data/ViewManager.cs:28-62 | DROP is issued first and exactly once; CREATE is issued at most once, after DROP, and exactly when DROP succeeded |
| ViewManager.CreateViewSql | GQL/Data/ViewManager.cs:55-60 | the CREATE VIEW text is never the DROP text |
| ViewManager.CreateViewText | GQL/Data/ViewManager.cs:31-60 | the CREATE VIEW text for a definition set is the fixed head, `Id`, every definition's select entry in order, `Data`, `CreatedAt` and `UpdatedAt`, one separator between each two columns, then the fixed tail |
| ViewManager.CreateViewColumns | GQL/Data/ViewManager.cs:55-60 | the CREATE VIEW text is its fixed head, the joined columns and its fixed tail: the first column directly follows the head and the last column directly precedes the tail |
| ViewManager.RecreateSuccess | GQL/Data/ViewManager.cs:18-65 | the rebuild succeeds exactly when the configuration loads and both statements are accepted; the view then has the configured select list |
| ViewManager.RecreateNotAtomic | GQL/Data/ViewManager.cs:28-62 | an accepted DROP followed by a rejected CREATE fails and leaves no view |
| ViewManager.RecreateIdempotent | GQL/Data/ViewManager.cs:18-65 | rebuilding again after a successful rebuild succeeds and leaves the same view |
| ProductViewTypeModule.StringItems | GQL/GraphQL/ProductViewTypeModule.cs:154 | a `List<string>` binds exactly from arrays of strings and nulls, element by element |
| ProductViewTypeModule.Deserialize | GQL/GraphQL/ProductViewTypeModule.cs:180 | null gives default; conversion fails exactly on a kind mismatch; a result has the requested kind; strings, booleans, decimals, Int32-range integers and string lists convert to their value |
| ProductViewTypeModule.ExtractJsonValue | GQL/GraphQL/ProductViewTypeModule.cs:170-189 | default without a payload; a value exactly when the payload is an object with the stripped key and the value there converts; the value is then that conversion, of the requested kind |
| ProductViewTypeModule.MissingPropertyIsDefault | GQL/GraphQL/ProductViewTypeModule.cs:176-188 | a payload without the stripped key gives default |
| ProductViewTypeModule.MismatchIsDefault | GQL/GraphQL/ProductViewTypeModule.cs:174-186 | a value that does not convert is swallowed and gives default |
| ProductViewTypeModule.DottedPathIsOneKey | GQL/GraphQL/ProductViewTypeModule.cs:176-178 | "$.a.b" is looked up as the single top-level key "a.b", not as a nested path |
| ProductViewTypeModule.ConfigureDynamicField | GQL/GraphQL/ProductViewTypeModule.cs:103-168 | the field keeps its name; String, Int, Boolean, Float/Decimal and ListString pick their type and target; every other tag is a String field |
| ProductViewTypeModule.DefaultTypeIsString | GQL/GraphQL/ProductViewTypeModule.cs:158-166 | a definition with the default empty type is configured exactly as a String one |
| ProductViewTypeModule.Resolve | GQL/GraphQL/ProductViewTypeModule.cs:85-166 | `id` resolves to the row's id; `data` is null exactly without a payload and is otherwise the payload; an extracting resolver is null exactly when extraction gives default and otherwise gives the extracted value; a ListString resolver always gives a list: the extracted one, or the empty one when extraction gives default |
| ProductViewTypeModule.ResolvesPayloadValue | GQL/GraphQL/ProductViewTypeModule.cs:105-166 | a configured field resolves to the payload's value at its stripped path: an Int32 integer for Int, a boolean for Boolean, the number for Float and Decimal, the strings and nulls of an array for ListString, the text for String and every other tag |
| ProductViewTypeModule.ResolvedValueConforms | GQL/GraphQL/ProductViewTypeModule.cs:105-166 | whatever the payload, a resolver returns a value of its field's declared GraphQL type |
| ProductViewTypeModule.ListStringNeverNull | GQL/GraphQL/ProductViewTypeModule.cs:148-156 | a ListString field always resolves to a list, the empty one when extraction gives default |
| ProductViewTypeModule.AbsentPayloadResolution | GQL/GraphQL/ProductViewTypeModule.cs:170-172 | without a payload every field resolves to null, except ListString fields, which resolve to the empty list |
| ProductViewTypeModule.ProductViewTypeShape | GQL/GraphQL/ProductViewTypeModule.cs:80-96 | the type is named ProductView; `id` (non-null Int) comes first and `data` (JSON) second; then one field per definition in order, named exactly as the definition |
| ProductViewTypeModule.SameDefinitionsAgree | GQL/Data/ViewManager.cs:33-49 | built from the same definitions, the view's dynamic columns and the type's dynamic fields carry the same names in the same order |
| ProductViewTypeModule.DuplicateNamesPassThrough | GQL/GraphQL/ProductViewTypeModule.cs:91-95 | two definitions with one name give two GraphQL fields with that name and two view columns aliased with it: nothing rejects duplicates |
| ProductViewTypeModule.TypeModule.CreateTypes | GQL/GraphQL/ProductViewTypeModule.cs:72-101 | the loop emits exactly one type, the ProductView type of the current configuration |
| ProductViewTypeModule.TypeModule.OnConfigFileChanged | GQL/GraphQL/ProductViewTypeModule.cs:37-65 | the new configuration, the TypesChanged count, the statement log and the view are those of parse, install, rebuild, raise, stopping silently at the first failure |
| ProductViewTypeModule.ReloadParseFailure | GQL/GraphQL/ProductViewTypeModule.cs:43-47 | a configuration that cannot be parsed changes nothing: the old configuration stays, no statement runs and TypesChanged is not raised |
| ProductViewTypeModule.ReloadSuccess | GQL/GraphQL/ProductViewTypeModule.cs:42-59 | on success the new configuration is installed (the empty one for a JSON null), the view is dropped and created from the configuration ViewManager read, and TypesChanged is raised exactly once |
| ProductViewTypeModule.ReloadRebuildFailure | GQL/GraphQL/ProductViewTypeModule.cs:44-64 | a failed rebuild leaves the new configuration installed and does not raise TypesChanged |
| ProductViewTypeModule.ReloadConsistentWhenReadsAgree | GQL/GraphQL/ProductViewTypeModule.cs:44-59 | when both reads see the same file and TypesChanged is raised, the rebuilt view and the type of the installed configuration expose the same fields in the same order |
| ProductViewTypeModule.ReloadReadsCanDisagree | GQL/Data/ViewManager.cs:21 | if the file changes between the two reads, TypesChanged is raised although the view was built from other definitions than the type |
| ReadPaths.SplitDots | GQL/Data/ViewManager.cs:45-46 | a dotted path splits into at least one segment, and no segment contains a dot |
| ReadPaths.JoinSplitDots | GQL/Data/ViewManager.cs:45-46 | joining the segments with dots gives back the path |
| ReadPaths.SplitJoinDots | GQL/Data/ViewManager.cs:45-46 | splitting dot-free segments joined with dots gives back the segments |
| ReadPaths.SplitWithoutDot | GQL/Data/ViewManager.cs:45-46 | a path without a dot is a single segment |
| ReadPaths.FirstLookupUnique | GQL/GraphQL/ProductViewTypeModule.cs:178 | when a key occurs at most once, the first match and the last match agree |
| ReadPaths.LookupSkipsHead | GQL/GraphQL/ProductViewTypeModule.cs:178 | a leading property with another key does not affect the lookup |
| ReadPaths.SinglePathsAgree | GQL/GraphQL/ProductViewTypeModule.cs:176-178 | for a path without dots and a payload holding the key at most once, the view column and the resolver read the same JSON value |
| ReadPaths.NestedPathViewReads | GQL/Data/ViewManager.cs:43-46 | the view's column for "$.a.b" reaches `b` inside `a` |
| ReadPaths.NestedPathsDiverge | GQL/Data/ViewManager.cs:43-46 | for "$.a.b" over `{"a": {"b": "x"}}` the view column reads "x" while the GraphQL field resolves to null |

## Left out

- File watching, the 100 ms debounce sleep and the file reads are I/O. The parsed file is an input `Result<Json>`.
- The constructor of `ProductViewTypeModule`, which wires up the watcher, and `Dispose` are left out. `TypeModule.constructor` only sets the configuration.
- `async`/`await` and concurrency between a reload and requests in flight are not modelled. Each operation runs as one sequential step.
- Console logging (`ViewManager.cs:64`, `ProductViewTypeModule.cs:49, 63, 76, 90, 93`) is left out.
- HotChocolate is an external library. A GraphQL type is an ordered list of (name, type, resolver), and schema execution is not modelled.
- Exceptions thrown by `TypesChanged` subscribers are not modelled: raising the event is a counter.
- SQLite is abstract: `accepts` decides whether a statement runs. `json_extract` is modelled only in `ReadPaths`, and only over object members. Array steps, quoted keys, SQLite's duplicate-key rule and malformed paths are not modelled, so `SinglePathsAgree` assumes the key occurs at most once. `CAST(... AS REAL)` is not modelled as a conversion: the model builds its text, and `SinglePathsAgree` compares the extracted JSON value before any cast.
- ProductViewTypeModule.Deserialize: exponent notation, `decimal` range and precision, and number-to-`decimal` overflow are not modelled. Every JSON number converts to `decimal?`.
- Models.Price: `GetDecimal` overflow is not modelled.
- Config.DeserializeConfig: an explicit JSON null for `dynamicFields`, for a definition, or for `name`, `type` or `jsonPath` is rejected at binding as a JsonException. .NET instead stores the null, and what happens next depends on which value was null:
  - On a reload, a null list makes `_config.DynamicFields.Count` (`ProductViewTypeModule.cs:49`) throw after `_config` has been assigned and before the rebuild, so no statement runs and `TypesChanged` is not raised. A later `CreateTypesAsync` would throw at `ProductViewTypeModule.cs:76`.
  - `RecreateProductsViewAsync` reads the file again, so it throws after DROP at `ViewManager.cs:33` only when its own read sees a null list that the handler's read did not.
  - A null `jsonPath` makes `ViewManager.cs:43` throw after DROP. In a resolver the same null is caught by `ExtractJsonValue` and gives default.
  - A null name or type is used as an empty name or an unknown tag.
- ViewManager.CreateViewSql: its own contract only tells the CREATE text apart from the DROP text, so that callers stay cheap to verify. The text built for a configuration is stated in full by `CreateViewText`.
- Config.KeysMatchIgnoringCase: case-insensitive key matching is modelled for ASCII letters only. The full Unicode case folding of .NET is not modelled.
- Timestamps (`CreatedAt`, `UpdatedAt`) are left out of the row; only their column names appear in the view.
- HotChocolate's implicit binding of the remaining `ProductView` members (such as `createdAt` and `updatedAt`) and its merging of repeated `descriptor.Field(name)` calls are not modelled: the type holds exactly the explicitly declared fields, and a repeated name is kept as a second field.
- The CRUD plumbing (`Program.cs`, `Query.cs`, `Mutation.cs`, `AppDbContext.cs`) and the initial migration are not part of this model. `ProductView` is used only as a record shape.

=== FILE: config.dfy ===
/** The projection's configuration record, bound from JSON the way
    System.Text.Json does with case-insensitive property names. */
module Config {
  import opened Wrappers
  import opened Json
  import opened Text

  /** One declared projection field. Every property defaults to "". */
  datatype DynamicField = DynamicField(name: string, typeTag: string, jsonPath: string)

  /** The whole definition set, in declaration order. */
  datatype ProductViewConfig = ProductViewConfig(dynamicFields: seq<DynamicField>)

  /** The JSON property names the record is bound from. */
  const DynamicFieldsKey: string := "dynamicFields"
  const NameKey: string := "name"
  const TypeKey: string := "type"
  const JsonPathKey: string := "jsonPath"

  /** `new ProductViewConfig()`: no dynamic fields. */
  const EmptyConfig: ProductViewConfig := ProductViewConfig([])

  /** `new DynamicField()`: every property empty. */
  const DefaultField: DynamicField := DynamicField("", "", "")

  /** JsonSerializer.Deserialize<ProductViewConfig>: a JSON null gives a null
      reference (None); an object is bound property by property starting from
      the defaults; any other kind of value throws. */
  function DeserializeConfig(j: Json): (r: Result<Option<ProductViewConfig>>)
    ensures j.Null? ==> r == Ok(None)
    ensures !j.Null? && !j.Object? ==> r == Err(JsonException)
    ensures r.Ok? && r.value.Some? ==> j.Object?
    ensures j.Object? ==> (r.Ok? <==> forall i :: 0 <= i < |j.props| && EqualsIgnoreCase(j.props[i].0, DynamicFieldsKey) ==> BindFieldList(j.props[i].1).Ok?)
    ensures r.Err? ==> r.error == JsonException
  {
    match j
    case Null => Ok(None)
    case Object(props) =>
      ConfigPropsOutcome(props, EmptyConfig);
      var config :- BindConfig(props, EmptyConfig);
      Ok(Some(config))
    case _ => Err(JsonException)
  }

  /** Binds the properties of the config object in document order; a later
      `dynamicFields` replaces an earlier one and unknown keys are skipped. */
  function BindConfig(props: seq<(string, Json)>, config: ProductViewConfig): Result<ProductViewConfig> {
    if props == [] then Ok(config)
    else if EqualsIgnoreCase(props[0].0, DynamicFieldsKey) then
      var fields :- BindFieldList(props[0].1);
      BindConfig(props[1..], ProductViewConfig(fields))
    else BindConfig(props[1..], config)
  }

  /** A `List<DynamicField>` must be a JSON array of field objects. */
  function BindFieldList(j: Json): (r: Result<seq<DynamicField>>)
    ensures r.Ok? <==> j.Array? && forall i :: 0 <= i < |j.items| ==> BindField(j.items[i]).Ok?
    ensures r.Err? ==> r.error == JsonException
  {
    if j.Array? then BindFields(j.items) else Err(JsonException)
  }

  function BindFields(items: seq<Json>): (r: Result<seq<DynamicField>>)
    ensures r.Ok? <==> forall i :: 0 <= i < |items| ==> BindField(items[i]).Ok?
    ensures r.Ok? ==> |r.value| == |items| && forall i :: 0 <= i < |items| ==> r.value[i] == BindField(items[i]).value
    ensures r.Err? ==> r.error == JsonException
  {
    if items == [] then Ok([])
    else
      var field :- BindField(items[0]);
      var rest :- BindFields(items[1..]);
      Ok([field] + rest)
  }

  /** A definition binds when it is an object whose wire keys all hold strings. */
  function BindField(j: Json): (r: Result<DynamicField>)
    ensures r.Ok? <==> j.Object? && forall i :: 0 <= i < |j.props| && IsFieldKey(j.props[i].0) ==> j.props[i].1.Str?
    ensures r.Err? ==> r.error == JsonException
  {
    if j.Object? then
      FieldPropsOutcome(j.props, DefaultField);
      BindFieldProps(j.props, DefaultField)
    else Err(JsonException)
  }

  /** A key that binds one of the three definition properties. */
  predicate IsFieldKey(key: string) {
    EqualsIgnoreCase(key, NameKey) || EqualsIgnoreCase(key, TypeKey) || EqualsIgnoreCase(key, JsonPathKey)
  }

  /** Binds `name`, `type` and `jsonPath` (in any letter case) from JSON strings;
      unknown keys are skipped and a later duplicate wins. */
  function BindFieldProps(props: seq<(string, Json)>, field: DynamicField): Result<DynamicField> {
    if props == [] then Ok(field)
    else
      var (key, value) := props[0];
      if EqualsIgnoreCase(key, NameKey) then
        var s :- BindString(value);
        BindFieldProps(props[1..], field.(name := s))
      else if EqualsIgnoreCase(key, TypeKey) then
        var s :- BindString(value);
        BindFieldProps(props[1..], field.(typeTag := s))
      else if EqualsIgnoreCase(key, JsonPathKey) then
        var s :- BindString(value);
        BindFieldProps(props[1..], field.(jsonPath := s))
      else BindFieldProps(props[1..], field)
  }

  function BindString(j: Json): Result<string> {
    if j.Str? then Ok(j.s) else Err(JsonException)
  }

  /** `Deserialize<ProductViewConfig>(text) ?? new ProductViewConfig()` applied to
      the outcome of reading and parsing the configuration file. */
  function LoadConfig(source: Result<Json>): (r: Result<ProductViewConfig>)
    ensures source.Err? ==> r == Err(source.error)
    ensures source == Ok(Null) ==> r == Ok(EmptyConfig)
    ensures r.Ok? ==> source.Ok? && (source.value.Null? || source.value.Object?)
    ensures source.Ok? && source.value.Object? && r.Ok? ==> DeserializeConfig(source.value) == Ok(Some(r.value))
    ensures source.Ok? && source.value.Object? ==>
      (r.Ok? <==> forall i :: 0 <= i < |source.value.props| && EqualsIgnoreCase(source.value.props[i].0, DynamicFieldsKey) ==> BindFieldList(source.value.props[i].1).Ok?)
    ensures source.Ok? && r.Err? ==> r.error == JsonException
  {
    var j :- source;
    var config :- DeserializeConfig(j);
    Ok(if config.Some? then config.value else EmptyConfig)
  }

  /** The JSON form of a configuration, under the record's wire keys. */
  function EncodeConfig(config: ProductViewConfig): Json {
    Object([(DynamicFieldsKey, Array(EncodeFields(config.dynamicFields)))])
  }

  function EncodeFields(fields: seq<DynamicField>): seq<Json> {
    if fields == [] then [] else [EncodeField(fields[0])] + EncodeFields(fields[1..])
  }

  function EncodeField(field: DynamicField): Json {
    Object([(NameKey, Str(field.name)), (TypeKey, Str(field.typeTag)), (JsonPathKey, Str(field.jsonPath))])
  }

  /** No wire key matches another, even ignoring case. */
  lemma WireKeysDistinct()
    ensures !EqualsIgnoreCase(NameKey, DynamicFieldsKey)
    ensures !EqualsIgnoreCase(TypeKey, NameKey) && !EqualsIgnoreCase(JsonPathKey, NameKey)
    ensures !EqualsIgnoreCase(JsonPathKey, TypeKey)
    ensures !EqualsIgnoreCase(TypeKey, DynamicFieldsKey) && !EqualsIgnoreCase(JsonPathKey, DynamicFieldsKey)
  {
    assert ToLowerAscii(TypeKey)[0] != ToLowerAscii(NameKey)[0];
  }

  /** A definition object binds exactly when every wire key in it holds a
      string; otherwise it throws a JsonException. */
  lemma {:induction false} FieldPropsOutcome(props: seq<(string, Json)>, field: DynamicField)
    ensures BindFieldProps(props, field).Ok? <==> forall i :: 0 <= i < |props| && IsFieldKey(props[i].0) ==> props[i].1.Str?
    ensures BindFieldProps(props, field).Err? ==> BindFieldProps(props, field).error == JsonException
  {
    if props != [] {
      var tail := props[1..];
      assert forall i :: 0 <= i < |tail| ==> tail[i] == props[i + 1];
      var (key, value) := props[0];
      if EqualsIgnoreCase(key, NameKey) {
        if value.Str? { FieldPropsOutcome(tail, field.(name := value.s)); }
      } else if EqualsIgnoreCase(key, TypeKey) {
        if value.Str? { FieldPropsOutcome(tail, field.(typeTag := value.s)); }
      } else if EqualsIgnoreCase(key, JsonPathKey) {
        if value.Str? { FieldPropsOutcome(tail, field.(jsonPath := value.s)); }
      } else {
        FieldPropsOutcome(tail, field);
      }
    }
  }

  /** A configuration object binds exactly when every `dynamicFields` entry in
      it (earlier ones included) binds; otherwise it throws a JsonException. */
  lemma {:induction false} ConfigPropsOutcome(props: seq<(string, Json)>, config: ProductViewConfig)
    ensures BindConfig(props, config).Ok? <==>
      forall i :: 0 <= i < |props| && EqualsIgnoreCase(props[i].0, DynamicFieldsKey) ==> BindFieldList(props[i].1).Ok?
    ensures BindConfig(props, config).Err? ==> BindConfig(props, config).error == JsonException
  {
    if props != [] {
      var tail := props[1..];
      assert forall i :: 0 <= i < |tail| ==> tail[i] == props[i + 1];
      if EqualsIgnoreCase(props[0].0, DynamicFieldsKey) {
        var fields := BindFieldList(props[0].1);
        if fields.Ok? { ConfigPropsOutcome(tail, ProductViewConfig(fields.value)); }
      } else {
        ConfigPropsOutcome(tail, config);
      }
    }
  }

  /** A definition object with a wire key whose value is not a string. */
  predicate HasNonStringWireValue(j: Json) {
    j.Object? && exists m :: 0 <= m < |j.props| && IsFieldKey(j.props[m].0) && !j.props[m].1.Str?
  }

  /** The three ways a definition file that parses as an object is still
      rejected: a `dynamicFields` value that is not an array, an element that
      is not an object, a wire key whose value is not a string. */
  lemma MalformedListRejected(props: seq<(string, Json)>, i: nat)
    requires i < |props| && EqualsIgnoreCase(props[i].0, DynamicFieldsKey)
    ensures !props[i].1.Array? ==> LoadConfig(Ok(Object(props))) == Err(JsonException)
    ensures props[i].1.Array? && (exists k :: 0 <= k < |props[i].1.items| && !props[i].1.items[k].Object?) ==>
      LoadConfig(Ok(Object(props))) == Err(JsonException)
    ensures props[i].1.Array? && (exists k :: 0 <= k < |props[i].1.items| && HasNonStringWireValue(props[i].1.items[k])) ==>
      LoadConfig(Ok(Object(props))) == Err(JsonException)
  {
  }

  /** Any key equal to a wire key up to ASCII letter case binds that property. */
  lemma KeyBindsIgnoringCase(key: string, value: string, field: DynamicField)
    ensures EqualsIgnoreCase(key, NameKey) ==> BindFieldProps([(key, Str(value))], field) == Ok(field.(name := value))
    ensures EqualsIgnoreCase(key, TypeKey) ==> BindFieldProps([(key, Str(value))], field) == Ok(field.(typeTag := value))
    ensures EqualsIgnoreCase(key, JsonPathKey) ==> BindFieldProps([(key, Str(value))], field) == Ok(field.(jsonPath := value))
  {
    WireKeysDistinct();
    assert [(key, Str(value))][1..] == [];
  }

  /** Binding reads back exactly what was encoded under the wire keys. */
  lemma {:induction false} FieldRoundTrip(field: DynamicField)
    ensures BindField(EncodeField(field)) == Ok(field)
  {
    WireKeysDistinct();
    var props := EncodeField(field).props;
    var f1 := DefaultField.(name := field.name);
    var f2 := f1.(typeTag := field.typeTag);
    assert BindFieldProps(props, DefaultField) == BindFieldProps(props[1..], f1);
    assert BindFieldProps(props[1..], f1) == BindFieldProps(props[2..], f2) by {
      assert props[1..][0] == (TypeKey, Str(field.typeTag));
      assert props[1..][1..] == props[2..];
    }
    assert BindFieldProps(props[2..], f2) == BindFieldProps([], field) by {
      assert props[2..][0] == (JsonPathKey, Str(field.jsonPath));
      assert props[2..][1..] == [];
    }
  }

  lemma {:induction false} FieldsRoundTrip(fields: seq<DynamicField>)
    ensures BindFields(EncodeFields(fields)) == Ok(fields)
  {
    if fields != [] {
      FieldRoundTrip(fields[0]);
      FieldsRoundTrip(fields[1..]);
      assert EncodeFields(fields)[1..] == EncodeFields(fields[1..]);
      assert [fields[0]] + fields[1..] == fields;
    }
  }

  /** Deserialising an encoded configuration gives the configuration back. */
  lemma ConfigRoundTrip(config: ProductViewConfig)
    ensures DeserializeConfig(EncodeConfig(config)) == Ok(Some(config))
    ensures LoadConfig(Ok(EncodeConfig(config))) == Ok(config)
  {
    BindConfigRoundTrip(config);
    assert DeserializeConfig(EncodeConfig(config)) == Ok(Some(config));
  }

  lemma BindConfigRoundTrip(config: ProductViewConfig)
    ensures BindConfig(EncodeConfig(config).props, EmptyConfig) == Ok(config)
  {
    var props := EncodeConfig(config).props;
    assert EqualsIgnoreCase(props[0].0, DynamicFieldsKey);
    assert BindFieldList(props[0].1) == Ok(config.dynamicFields) by {
      FieldsRoundTrip(config.dynamicFields);
    }
    assert props[1..] == [];
  }

  /** A configuration object without a `dynamicFields` key binds to zero
      dynamic fields, and so does a JSON null once `?? new` is applied. */
  lemma {:induction false} MissingListIsEmpty(props: seq<(string, Json)>)
    requires forall i :: 0 <= i < |props| ==> !EqualsIgnoreCase(props[i].0, DynamicFieldsKey)
    ensures DeserializeConfig(Object(props)) == Ok(Some(EmptyConfig))
    ensures LoadConfig(Ok(Object(props))) == Ok(EmptyConfig)
    ensures LoadConfig(Ok(Null)) == Ok(EmptyConfig)
  {
    SkipsUnknownConfigKeys(props, EmptyConfig);
  }

  lemma {:induction false} SkipsUnknownConfigKeys(props: seq<(string, Json)>, config: ProductViewConfig)
    requires forall i :: 0 <= i < |props| ==> !EqualsIgnoreCase(props[i].0, DynamicFieldsKey)
    ensures BindConfig(props, config) == Ok(config)
  {
    if props != [] {
      assert !EqualsIgnoreCase(props[0].0, DynamicFieldsKey);
      SkipsUnknownConfigKeys(props[1..], config);
    }
  }

  /** A field object none of whose keys is a wire key binds to the defaults:
      name, type and path all empty. */
  lemma {:induction false} AbsentKeysGiveDefaults(props: seq<(string, Json)>)
    requires forall i :: 0 <= i < |props| ==>
      !EqualsIgnoreCase(props[i].0, NameKey) && !EqualsIgnoreCase(props[i].0, TypeKey) && !EqualsIgnoreCase(props[i].0, JsonPathKey)
    ensures BindField(Object(props)) == Ok(DynamicField("", "", ""))
  {
    SkipsUnknownFieldKeys(props, DefaultField);
  }

  lemma {:induction false} SkipsUnknownFieldKeys(props: seq<(string, Json)>, field: DynamicField)
    requires forall i :: 0 <= i < |props| ==>
      !EqualsIgnoreCase(props[i].0, NameKey) && !EqualsIgnoreCase(props[i].0, TypeKey) && !EqualsIgnoreCase(props[i].0, JsonPathKey)
    ensures BindFieldProps(props, field) == Ok(field)
  {
    if props != [] {
      SkipsUnknownFieldKeys(props[1..], field);
    }
  }

  /** Binding a definition's properties is a left-to-right pass: the second
      part of the object continues from what the first part bound, and a
      failure in the first part is final. */
  lemma {:induction false} BindFieldPropsAppend(p: seq<(string, Json)>, q: seq<(string, Json)>, field: DynamicField)
    ensures BindFieldProps(p + q, field) ==
      match BindFieldProps(p, field)
      case Ok(g) => BindFieldProps(q, g)
      case Err(e) => Err(e)
    decreases |p|
  {
    if p == [] {
      assert p + q == q;
    } else {
      assert (p + q)[0] == p[0];
      assert (p + q)[1..] == p[1..] + q;
      var (key, value) := p[0];
      if EqualsIgnoreCase(key, NameKey) {
        if value.Str? { BindFieldPropsAppend(p[1..], q, field.(name := value.s)); }
      } else if EqualsIgnoreCase(key, TypeKey) {
        if value.Str? { BindFieldPropsAppend(p[1..], q, field.(typeTag := value.s)); }
      } else if EqualsIgnoreCase(key, JsonPathKey) {
        if value.Str? { BindFieldPropsAppend(p[1..], q, field.(jsonPath := value.s)); }
      } else {
        BindFieldPropsAppend(p[1..], q, field);
      }
    }
  }

  /** The same left-to-right pass over the properties of the configuration. */
  lemma {:induction false} BindConfigAppend(p: seq<(string, Json)>, q: seq<(string, Json)>, config: ProductViewConfig)
    ensures BindConfig(p + q, config) ==
      match BindConfig(p, config)
      case Ok(c) => BindConfig(q, c)
      case Err(e) => Err(e)
    decreases |p|
  {
    if p == [] {
      assert p + q == q;
    } else {
      assert (p + q)[0] == p[0];
      assert (p + q)[1..] == p[1..] + q;
      if EqualsIgnoreCase(p[0].0, DynamicFieldsKey) {
        var fields := BindFieldList(p[0].1);
        if fields.Ok? { BindConfigAppend(p[1..], q, ProductViewConfig(fields.value)); }
      } else {
        BindConfigAppend(p[1..], q, config);
      }
    }
  }

  /** Any key equal to `dynamicFields` up to ASCII letter case replaces the
      list with the one it binds. */
  lemma ListKeyBindsIgnoringCase(key: string, value: Json, config: ProductViewConfig)
    requires EqualsIgnoreCase(key, DynamicFieldsKey) && BindFieldList(value).Ok?
    ensures BindConfig([(key, value)], config) == Ok(ProductViewConfig(BindFieldList(value).value))
  {
    assert [(key, value)][1..] == [];
  }

  /** Of two `name` keys (in any letter case) the later one wins. */
  lemma LaterNameWins(first: string, second: string, a: string, b: string, field: DynamicField)
    requires EqualsIgnoreCase(first, NameKey) && EqualsIgnoreCase(second, NameKey)
    ensures BindFieldProps([(first, Str(a)), (second, Str(b))], field) == Ok(field.(name := b))
  {
    BindFieldPropsAppend([(first, Str(a))], [(second, Str(b))], field);
    KeyBindsIgnoringCase(first, a, field);
    KeyBindsIgnoringCase(second, b, field.(name := a));
    assert [(first, Str(a))] + [(second, Str(b))] == [(first, Str(a)), (second, Str(b))];
  }

  /** Of two `dynamicFields` keys (in any letter case) the later list wins. */
  lemma LaterListWins(first: string, second: string, v: Json, w: Json, config: ProductViewConfig)
    requires EqualsIgnoreCase(first, DynamicFieldsKey) && EqualsIgnoreCase(second, DynamicFieldsKey)
    requires BindFieldList(v).Ok? && BindFieldList(w).Ok?
    ensures BindConfig([(first, v), (second, w)], config) == Ok(ProductViewConfig(BindFieldList(w).value))
  {
    BindConfigAppend([(first, v)], [(second, w)], config);
    ListKeyBindsIgnoringCase(first, v, config);
    ListKeyBindsIgnoringCase(second, w, ProductViewConfig(BindFieldList(v).value));
    assert [(first, v)] + [(second, w)] == [(first, v), (second, w)];
  }

  /** Key matching ignores letter case: "NAME", "Type" and "JSONPATH" bind. */
  lemma KeysMatchIgnoringCase(n: string, t: string, p: string)
    ensures BindField(Object([("NAME", Str(n)), ("Type", Str(t)), ("JSONPATH", Str(p))])) == Ok(DynamicField(n, t, p))
  {
    var props := [("NAME", Str(n)), ("Type", Str(t)), ("JSONPATH", Str(p))];
    assert ToLowerAscii("NAME") == NameKey;
    assert ToLowerAscii("Type") == TypeKey;
    assert ToLowerAscii("JSONPATH") == "jsonpath" == ToLowerAscii(JsonPathKey);
    assert ToLowerAscii("Type")[0] != ToLowerAscii(NameKey)[0];
    var f1 := DefaultField.(name := n);
    var f2 := f1.(typeTag := t);
    assert BindFieldProps(props, DefaultField) == BindFieldProps(props[1..], f1);
    assert BindFieldProps(props[1..], f1) == BindFieldProps(props[2..], f2) by {
      assert props[1..][0] == ("Type", Str(t));
      assert props[1..][1..] == props[2..];
    }
    assert BindFieldProps(props[2..], f2) == BindFieldProps([], DynamicField(n, t, p)) by {
      assert props[2..][0] == ("JSONPATH", Str(p));
      assert props[2..][1..] == [];
    }
  }
}

=== FILE: json.dfy ===
/** JSON documents as System.Text.Json's JsonElement presents them. */
module Json {
  import opened Wrappers

  /** A JSON number literal as written: `mantissa` with `scale` digits after the
      decimal point, so `9.99` is Number(999, 2) and `10` is Number(10, 0). */
  datatype Number = Number(mantissa: int, scale: nat)

  /** A JSON value. An object keeps its properties in document order and may
      repeat a key. */
  datatype Json =
    | Null
    | Bool(b: bool)
    | Num(n: Number)
    | Str(s: string)
    | Array(items: seq<Json>)
    | Object(props: seq<(string, Json)>)

  /** Ordinal, case-sensitive property lookup; when a key is repeated the LAST
      definition is the one found, as JsonElement.TryGetProperty does. */
  function Lookup(props: seq<(string, Json)>, key: string): (r: Option<Json>)
    ensures r.None? <==> forall i :: 0 <= i < |props| ==> props[i].0 != key
    ensures r.Some? ==> exists i :: 0 <= i < |props| && props[i] == (key, r.value)
                          && forall k :: i < k < |props| ==> props[k].0 != key
  {
    if props == [] then None
    else if props[|props| - 1].0 == key then Some(props[|props| - 1].1)
    else Lookup(props[..|props| - 1], key)
  }

  /** JsonElement.TryGetProperty: defined on objects only, any other kind of
      element throws InvalidOperationException. */
  function TryGetProperty(element: Json, key: string): (r: Result<Option<Json>>)
    ensures r.Err? <==> !element.Object?
    ensures r.Ok? ==> r.value == Lookup(element.props, key)
  {
    if element.Object? then Ok(Lookup(element.props, key)) else Err(InvalidOperation)
  }

  /** JsonElement.GetString: a string's text, null for a JSON null, and an
      InvalidOperationException for every other kind. */
  function GetString(element: Json): (r: Result<Option<string>>)
    ensures r.Ok? <==> element.Str? || element.Null?
    ensures element.Str? ==> r == Ok(Some(element.s))
    ensures element.Null? ==> r == Ok(None)
  {
    match element
    case Str(s) => Ok(Some(s))
    case Null => Ok(None)
    case _ => Err(InvalidOperation)
  }
}

=== FILE: lists.dfy ===
/** Sequences built by appending one mapped element per input, in order: the
    shape of every `foreach … Add(…)` loop in the core. */
module Lists {

  function Mapped<A, B>(f: A -> B, xs: seq<A>): seq<B> {
    if xs == [] then [] else Mapped(f, xs[..|xs| - 1]) + [f(xs[|xs| - 1])]
  }

  /** One element per input, each the image of the input at the same index. */
  lemma {:induction false} MappedAt<A, B>(f: A -> B, xs: seq<A>)
    ensures |Mapped(f, xs)| == |xs|
    ensures forall i :: 0 <= i < |xs| ==> Mapped(f, xs)[i] == f(xs[i])
  {
    if xs != [] {
      var init := xs[..|xs| - 1];
      MappedAt(f, init);
      assert forall i :: 0 <= i < |init| ==> init[i] == xs[i];
    }
  }

  /** Appending the image of the next input extends the mapped prefix. */
  lemma MappedStep<A, B>(f: A -> B, xs: seq<A>, i: nat)
    requires i < |xs|
    ensures Mapped(f, xs[..i + 1]) == Mapped(f, xs[..i]) + [f(xs[i])]
  {
    assert xs[..i + 1][..i] == xs[..i];
  }
}

=== FILE: models.dfy ===
/** The stored product and the row of the projection view, with the
    product's computed properties read straight from its JSON payload. */
module Models {
  import opened Wrappers
  import opened Json

  /** A stored product; the payload column may be NULL. Timestamps are not modelled. */
  datatype Product = Product(id: int, data: Option<Json>)

  /** A row of ProductsView as the query layer receives it. */
  datatype ProductView = ProductView(id: int, data: Option<Json>)

  /** The value stored under `key` when the payload is an object holding it. */
  function PropertyValue(data: Option<Json>, key: string): Option<Json> {
    if data.Some? && data.value.Object? then Lookup(data.value.props, key) else None
  }

  /** True when reading the payload as an object throws: it is present but
      not a JSON object. */
  predicate NotAnObject(data: Option<Json>) {
    data.Some? && !data.value.Object?
  }

  /** True when reading `key` as a string throws: the payload is not an object,
      or the value under `key` is neither a string nor null. */
  predicate StringReadThrows(data: Option<Json>, key: string) {
    NotAnObject(data) || (PropertyValue(data, key).Some? && !PropertyValue(data, key).value.Str? && !PropertyValue(data, key).value.Null?)
  }

  /** `Data.HasValue && Data.Value.TryGetProperty(key, out v) ? v.GetString() : null`. */
  function StringProperty(data: Option<Json>, key: string): (r: Result<Option<string>>)
    ensures r.Err? <==> StringReadThrows(data, key)
    ensures r.Ok? && r.value.Some? ==> PropertyValue(data, key) == Some(Str(r.value.value))
    ensures PropertyValue(data, key).Some? && PropertyValue(data, key).value.Str? ==> r == Ok(Some(PropertyValue(data, key).value.s))
    ensures data.None? ==> r == Ok(None)
  {
    if data.None? then Ok(None)
    else
      var found :- TryGetProperty(data.value, key);
      if found.Some? then GetString(found.value) else Ok(None)
  }

  /** Product.Name: null without a payload or without a `name` property, the
      property's text when it is a string; any other kind of value, or a payload
      that is not an object, throws. */
  function Name(p: Product): (r: Result<Option<string>>)
    ensures !NotAnObject(p.data) && (PropertyValue(p.data, "name") == None || PropertyValue(p.data, "name") == Some(Null)) ==> r == Ok(None)
    ensures r.Err? <==> StringReadThrows(p.data, "name")
    ensures r.Ok? && r.value.Some? <==> PropertyValue(p.data, "name").Some? && PropertyValue(p.data, "name").value.Str?
    ensures r.Ok? && r.value.Some? ==> PropertyValue(p.data, "name") == Some(Str(r.value.value))
  {
    StringProperty(p.data, "name")
  }

  /** Product.Description: as Name, for the `description` property. */
  function Description(p: Product): (r: Result<Option<string>>)
    ensures !NotAnObject(p.data) && (PropertyValue(p.data, "description") == None || PropertyValue(p.data, "description") == Some(Null)) ==> r == Ok(None)
    ensures r.Err? <==> StringReadThrows(p.data, "description")
    ensures r.Ok? && r.value.Some? <==> PropertyValue(p.data, "description").Some? && PropertyValue(p.data, "description").value.Str?
    ensures r.Ok? && r.value.Some? ==> PropertyValue(p.data, "description") == Some(Str(r.value.value))
  {
    StringProperty(p.data, "description")
  }

  /** Product.Price: the number under `price` when there is one; null when the
      payload is absent, has no `price`, or holds a value of another kind there.
      Only a payload that is not an object throws. */
  function Price(p: Product): (r: Result<Option<Number>>)
    ensures r.Err? <==> NotAnObject(p.data)
    ensures r.Ok? && r.value.Some? <==> PropertyValue(p.data, "price").Some? && PropertyValue(p.data, "price").value.Num?
    ensures r.Ok? && r.value.Some? ==> PropertyValue(p.data, "price") == Some(Num(r.value.value))
  {
    if p.data.None? then Ok(None)
    else
      var found :- TryGetProperty(p.data.value, "price");
      if found.Some? && found.value.Num? then Ok(Some(found.value.n)) else Ok(None)
  }
}

=== FILE: read_paths.dfy ===
/** The two read paths of a dynamic field: the view hands "$." + the stripped
    path to SQLite's json_extract, the resolver looks the stripped path up as
    one top-level key. A simplified json_extract shows where they agree and
    where they part. */
module ReadPaths {
  import opened Wrappers
  import opened Json
  import opened Text
  import opened Config
  import opened Models
  import opened ViewManager
  import opened ProductViewTypeModule

  /** The segments of a dotted path. */
  function SplitDots(s: string): (r: seq<string>)
    ensures |r| >= 1
    ensures forall k :: 0 <= k < |r| ==> '.' !in r[k]
  {
    if s == [] then [""]
    else if s[0] == '.' then [""] + SplitDots(s[1..])
    else
      var rest := SplitDots(s[1..]);
      [[s[0]] + rest[0]] + rest[1..]
  }

  lemma Regroup(a: string, b: string, c: string, d: string)
    ensures a + b + c + d == a + (b + c + d)
  {
  }

  /** Joining the segments with '.' gives the path back. */
  lemma {:induction false} JoinSplitDots(s: string)
    ensures Join(".", SplitDots(s)) == s
    decreases |s|
  {
    if s != [] {
      var tail := s[1..];
      var rest := SplitDots(tail);
      JoinSplitDots(tail);
      assert s == [s[0]] + tail;
      if s[0] == '.' {
        assert SplitDots(s) == [""] + rest;
        JoinCons(".", "", rest);
        assert Join(".", SplitDots(s)) == "." + tail;
      } else if |rest| == 1 {
        assert SplitDots(s) == [[s[0]] + rest[0]];
        assert Join(".", rest) == rest[0];
        assert Join(".", SplitDots(s)) == [s[0]] + tail;
      } else {
        var head := [s[0]] + rest[0];
        var joined := Join(".", rest[1..]);
        assert SplitDots(s) == [head] + rest[1..];
        JoinCons(".", head, rest[1..]);
        assert rest == [rest[0]] + rest[1..];
        JoinCons(".", rest[0], rest[1..]);
        Regroup([s[0]], rest[0], ".", joined);
      }
    }
  }

  /** A dot-free segment followed by a dot is split off as the first segment. */
  lemma {:induction false} SplitAfterSegment(a: string, s: string)
    requires '.' !in a
    ensures SplitDots(a + "." + s) == [a] + SplitDots(s)
    decreases |a|
  {
    if a == [] {
      assert a + "." + s == ['.'] + s;
    } else {
      var t := a[1..];
      SplitAfterSegment(t, s);
      assert a + "." + s == [a[0]] + (t + "." + s);
      assert [a[0]] + t == a;
    }
  }

  /** Splitting dot-free segments joined with dots gives back the segments,
      the other half of the round trip. */
  lemma {:induction false} SplitJoinDots(segments: seq<string>)
    requires segments != []
    requires forall k :: 0 <= k < |segments| ==> '.' !in segments[k]
    ensures SplitDots(Join(".", segments)) == segments
    decreases |segments|
  {
    if |segments| == 1 {
      SplitWithoutDot(segments[0]);
    } else {
      var rest := segments[1..];
      SplitJoinDots(rest);
      SplitAfterSegment(segments[0], Join(".", rest));
      assert segments == [segments[0]] + rest;
    }
  }

  lemma {:induction false} SplitWithoutDot(s: string)
    requires forall i :: 0 <= i < |s| ==> s[i] != '.'
    ensures SplitDots(s) == [s]
  {
    if s != [] {
      SplitWithoutDot(s[1..]);
      assert [s[0]] + s[1..] == s;
    }
  }

  /** Lookup that stops at the first property with the key. */
  function FirstLookup(props: seq<(string, Json)>, key: string): Option<Json> {
    if props == [] then None
    else if props[0].0 == key then Some(props[0].1)
    else FirstLookup(props[1..], key)
  }

  /** With the key present at most once, first and last match coincide. */
  lemma {:induction false} FirstLookupUnique(props: seq<(string, Json)>, key: string)
    requires forall i, j :: 0 <= i < j < |props| && props[i].0 == key ==> props[j].0 != key
    ensures FirstLookup(props, key) == Lookup(props, key)
  {
    if props != [] {
      if props[0].0 == key {
        var k :| 0 <= k < |props| && props[k].0 == key && Lookup(props, key) == Some(props[k].1)
                 && forall m :: k < m < |props| ==> props[m].0 != key;
        assert k == 0;
      } else {
        var tail := props[1..];
        assert forall i :: 0 <= i < |tail| ==> tail[i] == props[i + 1];
        FirstLookupUnique(tail, key);
        LookupSkipsHead(props, key);
      }
    }
  }

  lemma LookupSkipsHead(props: seq<(string, Json)>, key: string)
    requires props != [] && props[0].0 != key
    ensures Lookup(props, key) == Lookup(props[1..], key)
  {
    var tail := props[1..];
    assert forall i :: 0 <= i < |tail| ==> tail[i] == props[i + 1];
    var r := Lookup(props, key);
    if r.Some? {
      var k :| 0 <= k < |props| && props[k] == (key, r.value) && forall m :: k < m < |props| ==> props[m].0 != key;
      assert tail[k - 1] == (key, r.value);
      var t := Lookup(tail, key);
      var k' :| 0 <= k' < |tail| && tail[k'] == (key, t.value) && forall m :: k' < m < |tail| ==> tail[m].0 != key;
      assert k' == k - 1;
    }
  }

  /** Follows object members one key at a time; any other step gives NULL. */
  function Walk(j: Json, keys: seq<string>): Option<Json>
    decreases |keys|
  {
    if keys == [] then Some(j)
    else if !j.Object? then None
    else
      var next := FirstLookup(j.props, keys[0]);
      if next.None? then None else Walk(next.value, keys[1..])
  }

  /** json_extract(Data, path) for paths made of "$" and dotted member names;
      a NULL payload gives NULL. */
  function SqliteExtract(data: Option<Json>, path: string): Option<Json> {
    if data.None? || |path| < 2 || path[..2] != RootMarker then None
    else Walk(data.value, SplitDots(path[2..]))
  }

  /** For a single-segment path and a payload that holds the key at most once,
      the view column and the resolver read the same JSON value. */
  lemma SinglePathsAgree(props: seq<(string, Json)>, jsonPath: string)
    requires forall i :: 0 <= i < |StripRoot(jsonPath)| ==> StripRoot(jsonPath)[i] != '.'
    requires forall i, j :: 0 <= i < j < |props| && props[i].0 == StripRoot(jsonPath) ==> props[j].0 != StripRoot(jsonPath)
    ensures SqliteExtract(Some(Object(props)), ViewPath(jsonPath)) == PropertyValue(Some(Object(props)), StripRoot(jsonPath))
  {
    var key := StripRoot(jsonPath);
    SplitWithoutDot(key);
    FirstLookupUnique(props, key);
    assert ViewPath(jsonPath)[2..] == key;
    assert SplitDots(ViewPath(jsonPath)[2..]) == [key];
    var next := FirstLookup(props, key);
    if next.Some? {
      assert Walk(Object(props), [key]) == Walk(next.value, []);
    }
  }

  /** The view column of a nested path reaches into the inner object. */
  lemma NestedPathViewReads()
    ensures SqliteExtract(Some(Object([("a", Object([("b", Str("x"))]))])), ViewPath("$.a.b")) == Some(Str("x"))
  {
    StripRootInside();
    assert SplitDots("a.b") == ["a", "b"] by {
      SplitWithoutDot("b");
      assert ".b"[1..] == "b";
      assert SplitDots(".b") == ["", "b"];
      assert "a.b"[1..] == ".b";
      assert ['a'] + "" == "a";
    }
    assert ViewPath("$.a.b")[2..] == "a.b";
  }

  /** On a nested path they part: the view finds `b` inside `a`, the resolver
      asks for a top-level key "a.b" and resolves the field to null. */
  lemma NestedPathsDiverge()
    ensures var data := Some(Object([("a", Object([("b", Str("x"))]))]));
      var field := DynamicField("ab", "String", "$.a.b");
      && SqliteExtract(data, ViewPath(field.jsonPath)) == Some(Str("x"))
      && Resolve(ConfigureDynamicField(field).resolver, ProductView(1, data)) == GNull
  {
    NestedPathViewReads();
    DottedPathIsOneKey();
    assert ConfigureDynamicField(DynamicField("ab", "String", "$.a.b")).resolver == Extract(StringTarget, "$.a.b");
  }
}

=== FILE: text.dfy ===
/** The few .NET string operations the core relies on. */
module Text {

  /** The JSON-path root marker that the core removes from declared paths. */
  const RootMarker: string := "$."

  /** True when `s` holds "$." at some position. */
  predicate ContainsRoot(s: string) {
    exists i :: 0 <= i < |s| - 1 && s[i] == '$' && s[i + 1] == '.'
  }

  /** `s.Replace("$.", "")`: one ordinal left-to-right pass that deletes every
      non-overlapping occurrence of "$.", wherever it stands. */
  function StripRoot(s: string): (r: string)
    ensures |r| <= |s|
    decreases |s|
  {
    if |s| < 2 then s
    else if s[..2] == RootMarker then StripRoot(s[2..])
    else [s[0]] + StripRoot(s[1..])
  }

  /** A path without the marker comes back unchanged. */
  lemma {:induction false} StripRootWithoutMarker(s: string)
    requires !ContainsRoot(s)
    ensures StripRoot(s) == s
    decreases |s|
  {
    if |s| >= 2 {
      assert s[..2][0] == s[0] && s[..2][1] == s[1];
      assert s[0] != '$' || s[1] != '.';
      var rest := s[1..];
      assert forall i :: 0 <= i < |rest| ==> rest[i] == s[i + 1];
      StripRootWithoutMarker(s[1..]);
    }
  }

  /** A leading marker is removed, and so is every later one. */
  lemma StripRootLeading(s: string)
    ensures StripRoot(RootMarker + s) == StripRoot(s)
  {
    assert (RootMarker + s)[..2] == RootMarker;
    assert (RootMarker + s)[2..] == s;
  }

  /** Every marker is deleted wherever it stands: the text on each side of
      one is stripped on its own, and no marker is formed across the cut. */
  lemma {:induction false} StripRootConcat(a: string, b: string)
    ensures StripRoot(a + RootMarker + b) == StripRoot(a) + StripRoot(b)
    decreases |a|
  {
    var s := a + RootMarker + b;
    if |a| == 0 {
      assert s == RootMarker + b;
      StripRootLeading(b);
    } else if |a| == 1 {
      assert StripRoot(s) == a + StripRoot(RootMarker + b) by {
        assert s[1] == '$' && s[..2] != RootMarker;
        assert s[1..] == RootMarker + b;
      }
      StripRootLeading(b);
    } else if a[..2] == RootMarker {
      var rest := a[2..];
      assert StripRoot(s) == StripRoot(rest + RootMarker + b) by {
        assert s[..2] == a[..2];
        assert s[2..] == rest + RootMarker + b;
      }
      StripRootConcat(rest, b);
    } else {
      var rest := a[1..];
      assert StripRoot(s) == [a[0]] + StripRoot(rest + RootMarker + b) by {
        assert s[..2] == a[..2];
        assert s[1..] == rest + RootMarker + b;
      }
      StripRootConcat(rest, b);
      assert StripRoot(a) == [a[0]] + StripRoot(rest);
    }
  }

  /** The marker is deleted in the middle of a path too, not only as a prefix. */
  lemma StripRootInside()
    ensures StripRoot("a$.b") == "ab"
    ensures StripRoot("$.a.b") == "a.b"
  {
    assert "a$.b"[..2][0] == 'a';
    assert "a$.b"[1..] == "$.b";
    assert "$.b"[..2] == RootMarker && "$.b"[2..] == "b";
    assert "$.a.b"[..2] == RootMarker && "$.a.b"[2..] == "a.b";
    assert "a.b"[..2] != RootMarker && "a.b"[1..] == ".b";
    assert ".b"[..2] != RootMarker && ".b"[1..] == "b";
  }

  /** A single pass: deleting one marker can join its neighbours into a new one,
      which stays in the result. */
  lemma StripRootSinglePass()
    ensures StripRoot("$$..") == "$."
    ensures ContainsRoot(StripRoot("$$.."))
  {
    assert "$$.."[..2] != RootMarker && "$$.."[1..] == "$..";
    assert "$.."[..2] == RootMarker && "$.."[2..] == ".";
    assert StripRoot("$..") == ".";
    assert StripRoot("$$..") == "$.";
    assert "$."[0] == '$' && "$."[1] == '.';
  }

  /** An ASCII letter's lower-case form; every other character is itself. */
  function LowerAscii(c: char): char {
    if 'A' <= c <= 'Z' then (c as int + 32) as char else c
  }

  /** Every ASCII letter of `s` in lower case. */
  function ToLowerAscii(s: string): (r: string)
    ensures |r| == |s|
  {
    seq(|s|, i requires 0 <= i < |s| => LowerAscii(s[i]))
  }

  /** Ordinal case-insensitive equality, restricted to ASCII case folding. */
  predicate EqualsIgnoreCase(a: string, b: string) {
    ToLowerAscii(a) == ToLowerAscii(b)
  }

  /** string.Join(separator, values). */
  function Join(separator: string, values: seq<string>): string {
    if values == [] then ""
    else if |values| == 1 then values[0]
    else values[0] + separator + Join(separator, values[1..])
  }

  /** A joined non-empty list starts with its first value and ends with its last. */
  lemma {:induction false} JoinEnds(separator: string, values: seq<string>)
    ensures var r := Join(separator, values);
      values != [] ==> |r| >= |values[0]| && r[..|values[0]|] == values[0]
    ensures var r := Join(separator, values);
      values != [] ==> |r| >= |values[|values| - 1]| && r[|r| - |values[|values| - 1]|..] == values[|values| - 1]
  {
    if |values| > 1 {
      var rest := values[1..];
      JoinEnds(separator, rest);
      var tail := Join(separator, rest);
      assert Join(separator, values) == values[0] + (separator + tail);
      assert values[|values| - 1] == rest[|rest| - 1];
    }
  }

  /** Joining a list of two or more values puts the separator after the first. */
  lemma JoinCons(separator: string, x: string, xs: seq<string>)
    requires xs != []
    ensures Join(separator, [x] + xs) == x + separator + Join(separator, xs)
  {
    assert ([x] + xs)[0] == x && ([x] + xs)[1..] == xs;
  }

  /** Joining two non-empty lists one after the other puts exactly one
      separator between the two joined texts. */
  lemma {:induction false} JoinAppend(separator: string, xs: seq<string>, ys: seq<string>)
    requires xs != [] && ys != []
    ensures Join(separator, xs + ys) == Join(separator, xs) + separator + Join(separator, ys)
    decreases |xs|
  {
    if |xs| == 1 {
      JoinCons(separator, xs[0], ys);
      assert xs + ys == [xs[0]] + ys;
    } else {
      var rest := xs[1..];
      var left, right := Join(separator, rest), Join(separator, ys);
      JoinAppend(separator, rest, ys);
      assert xs + ys == [xs[0]] + (rest + ys);
      JoinCons(separator, xs[0], rest + ys);
      assert Join(separator, xs + ys) == xs[0] + separator + (left + separator + right);
      assert xs == [xs[0]] + rest;
      JoinCons(separator, xs[0], rest);
      assert Join(separator, xs) == xs[0] + separator + left;
    }
  }

  /** string.Join built from the left: one more value adds the separator and
      that value at the end. */
  lemma JoinSnoc(separator: string, xs: seq<string>, y: string)
    requires xs != []
    ensures Join(separator, xs + [y]) == Join(separator, xs) + separator + y
  {
    JoinAppend(separator, xs, [y]);
  }
}

=== FILE: type_module.dfy ===
/** ProductViewTypeModule: the GraphQL object type built from the
    configuration, its lenient resolvers, and the reload on a config change. */
module ProductViewTypeModule {
  import opened Wrappers
  import opened Json
  import opened Text
  import opened Config
  import opened Models
  import opened ViewManager
  import opened Lists

  /** The `T` that ExtractJsonValue<T> is instantiated with. */
  datatype Target = StringTarget | IntTarget | BoolTarget | DecimalTarget | StringListTarget

  /** A value of one of those types; a list of strings may hold nulls. */
  datatype Value =
    | StringValue(s: string)
    | IntValue(i: int)
    | BoolValue(b: bool)
    | DecimalValue(n: Number)
    | StringListValue(items: seq<Option<string>>)

  function TargetOf(v: Value): Target {
    match v
    case StringValue(_) => StringTarget
    case IntValue(_) => IntTarget
    case BoolValue(_) => BoolTarget
    case DecimalValue(_) => DecimalTarget
    case StringListValue(_) => StringListTarget
  }

  const Int32Min: int := -0x8000_0000
  const Int32Max: int := 0x7fff_ffff

  /** An `int` is read only from an integer literal without a fraction part
      that fits in 32 bits. */
  predicate FitsInt32(n: Number) {
    n.scale == 0 && Int32Min <= n.mantissa <= Int32Max
  }

  /** The elements of a `List<string>`: strings or nulls, nothing else. */
  function StringItems(items: seq<Json>): (r: Option<seq<Option<string>>>)
    ensures r.Some? <==> forall i :: 0 <= i < |items| ==> items[i].Str? || items[i].Null?
    ensures r.Some? ==> |r.value| == |items|
    ensures r.Some? ==> forall i :: 0 <= i < |items| ==> r.value[i] == (if items[i].Str? then Some(items[i].s) else None)
  {
    if items == [] then Some([])
    else
      var head: Option<string> := if items[0].Str? then Some(items[0].s) else None;
      var rest := StringItems(items[1..]);
      if (items[0].Str? || items[0].Null?) && rest.Some? then Some([head] + rest.value) else None
  }

  /** The kinds of JSON value that JsonSerializer.Deserialize<T> accepts besides null. */
  predicate Converts(t: Target, j: Json) {
    match t
    case StringTarget => j.Str?
    case IntTarget => j.Num? && FitsInt32(j.n)
    case BoolTarget => j.Bool?
    case DecimalTarget => j.Num?
    case StringListTarget => j.Array? && StringItems(j.items).Some?
  }

  /** JsonSerializer.Deserialize<T>(element.GetRawText()): null for a JSON null,
      the value for a matching kind, a JsonException for anything else. */
  function Deserialize(t: Target, j: Json): (r: Result<Option<Value>>)
    ensures j.Null? ==> r == Ok(None)
    ensures r.Err? <==> !j.Null? && !Converts(t, j)
    ensures r.Ok? && r.value.Some? ==> TargetOf(r.value.value) == t && !j.Null?
    ensures t == StringTarget && j.Str? ==> r == Ok(Some(StringValue(j.s)))
    ensures t == DecimalTarget && j.Num? ==> r == Ok(Some(DecimalValue(j.n)))
    ensures t == IntTarget && j.Num? && FitsInt32(j.n) ==> r == Ok(Some(IntValue(j.n.mantissa)))
    ensures t == BoolTarget && j.Bool? ==> r == Ok(Some(BoolValue(j.b)))
    ensures t == StringListTarget && j.Array? && StringItems(j.items).Some? ==> r == Ok(Some(StringListValue(StringItems(j.items).value)))
  {
    if j.Null? then Ok(None)
    else
      match t
      case StringTarget => if j.Str? then Ok(Some(StringValue(j.s))) else Err(JsonException)
      case IntTarget => if j.Num? && FitsInt32(j.n) then Ok(Some(IntValue(j.n.mantissa))) else Err(JsonException)
      case BoolTarget => if j.Bool? then Ok(Some(BoolValue(j.b))) else Err(JsonException)
      case DecimalTarget => if j.Num? then Ok(Some(DecimalValue(j.n))) else Err(JsonException)
      case StringListTarget =>
        if j.Array? && StringItems(j.items).Some? then Ok(Some(StringListValue(StringItems(j.items).value)))
        else Err(JsonException)
  }

  /** ExtractJsonValue<T>: strip every "$." from the path, look the result up
      once at the top level and convert it; an absent payload, a payload that is
      not an object, a missing property and a failed conversion all give
      `default` (None) and never an exception. */
  function ExtractJsonValue(t: Target, data: Option<Json>, jsonPath: string): (r: Option<Value>)
    ensures data.None? ==> r.None?
    ensures r.Some? <==>
      && PropertyValue(data, StripRoot(jsonPath)).Some?
      && Deserialize(t, PropertyValue(data, StripRoot(jsonPath)).value).Ok?
      && Deserialize(t, PropertyValue(data, StripRoot(jsonPath)).value).value.Some?
    ensures r.Some? ==> r == Deserialize(t, PropertyValue(data, StripRoot(jsonPath)).value).value
    ensures r.Some? ==> TargetOf(r.value) == t
  {
    if data.None? then None
    else
      var propertyName := StripRoot(jsonPath);
      match TryGetProperty(data.value, propertyName)
      case Err(_) => None
      case Ok(found) =>
        if found.None? then None
        else
          match Deserialize(t, found.value)
          case Err(_) => None
          case Ok(v) => v
  }

  /** A missing property gives `default` whatever the target. */
  lemma MissingPropertyIsDefault(t: Target, props: seq<(string, Json)>, jsonPath: string)
    requires forall i :: 0 <= i < |props| ==> props[i].0 != StripRoot(jsonPath)
    ensures ExtractJsonValue(t, Some(Object(props)), jsonPath) == None
  {
  }

  /** A kind mismatch is swallowed: `default` again, not an error. */
  lemma MismatchIsDefault(t: Target, props: seq<(string, Json)>, jsonPath: string)
    requires Lookup(props, StripRoot(jsonPath)).Some?
    requires !Converts(t, Lookup(props, StripRoot(jsonPath)).value)
    ensures ExtractJsonValue(t, Some(Object(props)), jsonPath) == None
  {
  }

  /** The lookup key is the whole stripped path: "$.a.b" looks up the single
      top-level key "a.b", never the nested property b of a. */
  lemma DottedPathIsOneKey()
    ensures ExtractJsonValue(StringTarget, Some(Object([("a", Object([("b", Str("x"))]))])), "$.a.b") == None
    ensures ExtractJsonValue(StringTarget, Some(Object([("a.b", Str("x"))])), "$.a.b") == Some(StringValue("x"))
  {
    StripRootInside();
  }

  /** GraphQL output types of the ProductView object type. */
  datatype GraphQLType = NonNullInt | JsonScalar | StringType | IntType | BooleanType | DecimalType | ListOfString

  /** How a field is resolved from the parent row. */
  datatype Resolver =
    | IdResolver                         // the row's Id
    | DataResolver                       // the row's raw payload
    | Extract(target: Target, jsonPath: string)  // ExtractJsonValue<T>(Data, path)
    | ExtractListOrEmpty(jsonPath: string)       // ExtractJsonValue<List<string>>(Data, path) ?? new List<string>()

  datatype FieldDef = FieldDef(name: string, graphQLType: GraphQLType, resolver: Resolver)

  datatype ObjectType = ObjectType(name: string, fields: seq<FieldDef>)

  /** Tags with a case of their own in ConfigureDynamicField. */
  predicate IsKnownTag(typeTag: string) {
    typeTag in {"String", "Int", "Boolean", "Float", "Decimal", "ListString"}
  }

  /** ConfigureDynamicField: the field keeps its configured name; its type tag
      picks the GraphQL type and the extraction target, and every tag without a
      case of its own (the default empty tag included) is treated as String. */
  function ConfigureDynamicField(field: DynamicField): (d: FieldDef)
    ensures d.name == field.name
    ensures field.typeTag == "Int" ==> d.graphQLType == IntType && d.resolver == Extract(IntTarget, field.jsonPath)
    ensures field.typeTag == "Boolean" ==> d.graphQLType == BooleanType && d.resolver == Extract(BoolTarget, field.jsonPath)
    ensures IsNumericCast(field.typeTag) ==> d.graphQLType == DecimalType && d.resolver == Extract(DecimalTarget, field.jsonPath)
    ensures field.typeTag == "ListString" ==> d.graphQLType == ListOfString && d.resolver == ExtractListOrEmpty(field.jsonPath)
    ensures field.typeTag == "String" || !IsKnownTag(field.typeTag) ==>
      d.graphQLType == StringType && d.resolver == Extract(StringTarget, field.jsonPath)
  {
    match field.typeTag
    case "String" => FieldDef(field.name, StringType, Extract(StringTarget, field.jsonPath))
    case "Int" => FieldDef(field.name, IntType, Extract(IntTarget, field.jsonPath))
    case "Boolean" => FieldDef(field.name, BooleanType, Extract(BoolTarget, field.jsonPath))
    case "Float" => FieldDef(field.name, DecimalType, Extract(DecimalTarget, field.jsonPath))
    case "Decimal" => FieldDef(field.name, DecimalType, Extract(DecimalTarget, field.jsonPath))
    case "ListString" => FieldDef(field.name, ListOfString, ExtractListOrEmpty(field.jsonPath))
    case _ => FieldDef(field.name, StringType, Extract(StringTarget, field.jsonPath))
  }

  /** A field of the default empty type is configured exactly as a String field. */
  lemma DefaultTypeIsString(name: string, jsonPath: string)
    ensures ConfigureDynamicField(DynamicField(name, "", jsonPath)) == ConfigureDynamicField(DynamicField(name, "String", jsonPath))
    ensures ConfigureDynamicField(DefaultField).graphQLType == StringType
  {
    assert !IsKnownTag("");
  }

  /** Values a resolver hands back to GraphQL. */
  datatype GraphQLValue =
    | GNull
    | GInt(i: int)
    | GString(s: string)
    | GBool(b: bool)
    | GDecimal(n: Number)
    | GList(items: seq<Option<string>>)
    | GJson(j: Json)

  function ToGraphQL(v: Value): GraphQLValue {
    match v
    case StringValue(s) => GString(s)
    case IntValue(i) => GInt(i)
    case BoolValue(b) => GBool(b)
    case DecimalValue(n) => GDecimal(n)
    case StringListValue(items) => GList(items)
  }

  /** Runs a resolver on the parent row: the row's id, its payload, or the
      extracted value, null when extraction gives `default` (the empty list
      for `?? new List<string>()`). */
  function Resolve(resolver: Resolver, row: ProductView): (r: GraphQLValue)
    ensures resolver.IdResolver? ==> r == GInt(row.id)
    ensures resolver.DataResolver? ==> (r.GNull? <==> row.data.None?) && (row.data.Some? ==> r == GJson(row.data.value))
    ensures resolver.Extract? ==> (r.GNull? <==> ExtractJsonValue(resolver.target, row.data, resolver.jsonPath).None?)
    ensures resolver.Extract? && resolver.target == StringTarget ==>
      var found := PropertyValue(row.data, StripRoot(resolver.jsonPath));
      found.Some? && found.value.Str? ==> r == GString(found.value.s)
    ensures resolver.Extract? && ExtractJsonValue(resolver.target, row.data, resolver.jsonPath).Some? ==>
      r == ToGraphQL(ExtractJsonValue(resolver.target, row.data, resolver.jsonPath).value)
    ensures resolver.ExtractListOrEmpty? ==> r.GList?
    ensures resolver.ExtractListOrEmpty? && ExtractJsonValue(StringListTarget, row.data, resolver.jsonPath).None? ==> r == GList([])
    ensures resolver.ExtractListOrEmpty? && ExtractJsonValue(StringListTarget, row.data, resolver.jsonPath).Some? ==>
      r == ToGraphQL(ExtractJsonValue(StringListTarget, row.data, resolver.jsonPath).value)
  {
    match resolver
    case IdResolver => GInt(row.id)
    case DataResolver => if row.data.Some? then GJson(row.data.value) else GNull
    case Extract(t, jsonPath) =>
      var v := ExtractJsonValue(t, row.data, jsonPath);
      if v.Some? then ToGraphQL(v.value) else GNull
    case ExtractListOrEmpty(jsonPath) =>
      var v := ExtractJsonValue(StringListTarget, row.data, jsonPath);
      if v.Some? && v.value.StringListValue? then GList(v.value.items) else GList([])
  }

  /** A value is acceptable for a GraphQL type (null is, unless non-null). */
  predicate Conforms(v: GraphQLValue, ty: GraphQLType) {
    match ty
    case NonNullInt => v.GInt?
    case JsonScalar => v.GNull? || v.GJson?
    case StringType => v.GNull? || v.GString?
    case IntType => v.GNull? || (v.GInt? && Int32Min <= v.i <= Int32Max)
    case BooleanType => v.GNull? || v.GBool?
    case DecimalType => v.GNull? || v.GDecimal?
    case ListOfString => v.GNull? || v.GList?
  }

  /** Whatever the payload holds, a configured field resolves to a value of
      its declared GraphQL type, never to an error. */
  lemma ResolvedValueConforms(field: DynamicField, row: ProductView)
    ensures var d := ConfigureDynamicField(field);
      Conforms(Resolve(d.resolver, row), d.graphQLType)
  {
    var d := ConfigureDynamicField(field);
    if d.resolver.Extract? {
      var v := ExtractJsonValue(d.resolver.target, row.data, d.resolver.jsonPath);
      if v.Some? && v.value.IntValue? {
        var j := PropertyValue(row.data, StripRoot(d.resolver.jsonPath)).value;
        assert Deserialize(IntTarget, j) == Ok(Some(v.value));
      }
    }
  }

  /** A configured field hands GraphQL the payload's value at its stripped
      path, converted as its type tag says. */
  lemma ResolvesPayloadValue(field: DynamicField, id: int, props: seq<(string, Json)>)
    ensures var r := Resolve(ConfigureDynamicField(field).resolver, ProductView(id, Some(Object(props))));
      var found := Lookup(props, StripRoot(field.jsonPath));
      && (field.typeTag == "Int" && found.Some? && found.value.Num? && FitsInt32(found.value.n) ==> r == GInt(found.value.n.mantissa))
      && (field.typeTag == "Boolean" && found.Some? && found.value.Bool? ==> r == GBool(found.value.b))
      && (IsNumericCast(field.typeTag) && found.Some? && found.value.Num? ==> r == GDecimal(found.value.n))
      && (field.typeTag == "ListString" && found.Some? && found.value.Array? && StringItems(found.value.items).Some? ==>
            r == GList(StringItems(found.value.items).value))
      && ((field.typeTag == "String" || !IsKnownTag(field.typeTag)) && found.Some? && found.value.Str? ==> r == GString(found.value.s))
  {
  }

  /** A ListString field never resolves to null: `default` becomes []. */
  lemma ListStringNeverNull(field: DynamicField, row: ProductView)
    requires field.typeTag == "ListString"
    ensures Resolve(ConfigureDynamicField(field).resolver, row).GList?
    ensures ExtractJsonValue(StringListTarget, row.data, field.jsonPath).None? ==>
      Resolve(ConfigureDynamicField(field).resolver, row) == GList([])
  {
  }

  /** Without a payload every configured field resolves to its absence
      marker: null, or the empty list for ListString. */
  lemma AbsentPayloadResolution(field: DynamicField, id: int)
    ensures Resolve(ConfigureDynamicField(field).resolver, ProductView(id, None)) ==
      (if field.typeTag == "ListString" then GList([]) else GNull)
  {
  }

  const IdField: FieldDef := FieldDef("id", NonNullInt, IdResolver)
  const DataField: FieldDef := FieldDef("data", JsonScalar, DataResolver)

  /** The ProductView object type for a definition set. */
  function ProductViewType(fields: seq<DynamicField>): ObjectType {
    ObjectType("ProductView", [IdField, DataField] + Mapped(ConfigureDynamicField, fields))
  }

  /** Id (a non-null Int) first, then Data, then one field per definition in
      configuration order, named exactly as configured. */
  lemma ProductViewTypeShape(fields: seq<DynamicField>)
    ensures ProductViewType(fields).name == "ProductView"
    ensures |ProductViewType(fields).fields| == |fields| + 2
    ensures ProductViewType(fields).fields[0] == FieldDef("id", NonNullInt, IdResolver)
    ensures ProductViewType(fields).fields[1] == FieldDef("data", JsonScalar, DataResolver)
    ensures forall i :: 0 <= i < |fields| ==> ProductViewType(fields).fields[i + 2] == ConfigureDynamicField(fields[i])
    ensures forall i :: 0 <= i < |fields| ==> ProductViewType(fields).fields[i + 2].name == fields[i].name
  {
    var defs := Mapped(ConfigureDynamicField, fields);
    MappedAt(ConfigureDynamicField, fields);
    var all := [IdField, DataField] + defs;
    assert all[2..] == defs;
  }

  /** Built from the same definitions, the view's dynamic columns and the
      type's dynamic fields carry the same names in the same order. */
  predicate ViewMatchesType(selectFields: seq<string>, t: ObjectType, fields: seq<DynamicField>) {
    && |selectFields| == |fields| + 4
    && |t.fields| == |fields| + 2
    && forall i :: 0 <= i < |fields| ==>
         EndsWithAlias(selectFields[i + 1], fields[i].name) && t.fields[i + 2].name == fields[i].name
  }

  lemma {:induction false} SameDefinitionsAgree(fields: seq<DynamicField>)
    ensures ViewMatchesType(SelectList(fields), ProductViewType(fields), fields)
  {
    ProductViewTypeShape(fields);
  }

  /** Names are never compared: two definitions with one name give two columns and
      two GraphQL fields with that name. */
  lemma DuplicateNamesPassThrough(f: DynamicField, g: DynamicField)
    requires f.name == g.name
    ensures var t := ProductViewType([f, g]); |t.fields| == 4 && t.fields[2].name == t.fields[3].name == f.name
    ensures var view := SelectList([f, g]); EndsWithAlias(view[1], f.name) && EndsWithAlias(view[2], f.name)
  {
    ProductViewTypeShape([f, g]);
    assert [f, g][0] == f && [f, g][1] == g;
  }

  /** The observable state of the module and of the database it rebuilds. */
  datatype ReloadState = ReloadState(config: ProductViewConfig, typesChanged: nat, log: seq<string>, view: Option<seq<string>>)

  /** OnConfigFileChanged as a state transition. `read` is the module's own
      reading of the file, `viewRead` the one ViewManager makes. */
  function Reload(s: ReloadState, accepts: string -> bool, read: Result<Json>, viewRead: Result<Json>): ReloadState {
    match LoadConfig(read)
    case Err(_) => s
    case Ok(config) =>
      var rebuilt := Rebuild(accepts, s.view, viewRead);
      ReloadState(config, s.typesChanged + (if rebuilt.outcome.Pass? then 1 else 0), s.log + rebuilt.issued, rebuilt.view)
  }

  /** A configuration that cannot be read or bound changes nothing: the old
      configuration stays, the view is not touched and TypesChanged is not raised. */
  lemma ReloadParseFailure(s: ReloadState, accepts: string -> bool, read: Result<Json>, viewRead: Result<Json>)
    requires LoadConfig(read).Err?
    ensures Reload(s, accepts, read, viewRead) == s
  {
  }

  /** On success the new configuration (the empty one for a JSON null) is
      installed, the view is rebuilt, and TypesChanged is raised exactly once. */
  lemma ReloadSuccess(s: ReloadState, accepts: string -> bool, read: Result<Json>, viewRead: Result<Json>)
    requires LoadConfig(read).Ok?
    requires Rebuild(accepts, s.view, viewRead).outcome.Pass?
    ensures var n := Reload(s, accepts, read, viewRead);
      n.config == LoadConfig(read).value
      && n.typesChanged == s.typesChanged + 1
      && n.view == Some(SelectList(LoadConfig(viewRead).value.dynamicFields))
      && n.log == s.log + [DropViewSql, CreateViewSql(SelectList(LoadConfig(viewRead).value.dynamicFields))]
    ensures read == Ok(Null) ==> Reload(s, accepts, read, viewRead).config == EmptyConfig
  {
    RecreateSuccess(accepts, s.view, viewRead);
    DropBeforeCreate(accepts, s.view, viewRead);
  }

  /** A failed rebuild leaves the new configuration installed ahead of the
      view, and TypesChanged is not raised. */
  lemma ReloadRebuildFailure(s: ReloadState, accepts: string -> bool, read: Result<Json>, viewRead: Result<Json>)
    requires LoadConfig(read).Ok?
    requires Rebuild(accepts, s.view, viewRead).outcome.Fail?
    ensures Reload(s, accepts, read, viewRead).config == LoadConfig(read).value
    ensures Reload(s, accepts, read, viewRead).typesChanged == s.typesChanged
  {
  }

  /** When both readings of the file agree and the reload completes, the
      rebuilt view and the type built from the installed configuration
      expose the same fields in the same order. */
  lemma ReloadConsistentWhenReadsAgree(s: ReloadState, accepts: string -> bool, read: Result<Json>)
    requires Reload(s, accepts, read, read).typesChanged > s.typesChanged
    ensures var n := Reload(s, accepts, read, read);
      n.view.Some? && ViewMatchesType(n.view.value, ProductViewType(n.config.dynamicFields), n.config.dynamicFields)
  {
    RecreateSuccess(accepts, s.view, read);
    SameDefinitionsAgree(LoadConfig(read).value.dynamicFields);
  }

  /** The two readings are independent: if the file changes between them,
      TypesChanged is raised although the view was rebuilt from other
      definitions than the installed configuration. */
  lemma ReloadReadsCanDisagree(s: ReloadState, field: DynamicField)
    ensures var n := Reload(s, _ => true, Ok(EncodeConfig(ProductViewConfig([field]))), Ok(Null));
      && n.typesChanged == s.typesChanged + 1
      && n.config.dynamicFields == [field]
      && n.view == Some(["Id", "Data", "CreatedAt", "UpdatedAt"])
      && |ProductViewType(n.config.dynamicFields).fields| == 3
  {
    ConfigRoundTrip(ProductViewConfig([field]));
    RecreateSuccess(_ => true, s.view, Ok(Null));
    EmptyConfigView();
    ProductViewTypeShape([field]);
  }

  /** The module object: the configuration it builds types from, and how many
      times it has raised TypesChanged. */
  class TypeModule {
    var config: ProductViewConfig
    var typesChanged: nat

    constructor (config: ProductViewConfig)
      ensures this.config == config && typesChanged == 0
    {
      this.config := config;
      typesChanged := 0;
    }

    /** CreateTypesAsync: one ProductView type, its fields appended in a loop. */
    method CreateTypes() returns (types: seq<ObjectType>)
      ensures types == [ProductViewType(config.dynamicFields)]
    {
      var dynamicFields := config.dynamicFields;
      var fields := [IdField, DataField];
      var i := 0;
      while i < |dynamicFields|
        invariant 0 <= i <= |dynamicFields|
        invariant fields == [IdField, DataField] + Mapped(ConfigureDynamicField, dynamicFields[..i])
      {
        fields := fields + [ConfigureDynamicField(dynamicFields[i])];
        MappedStep(ConfigureDynamicField, dynamicFields, i);
        i := i + 1;
      }
      assert dynamicFields[..i] == dynamicFields;
      types := [ObjectType("ProductView", fields)];
    }

    /** OnConfigFileChanged: parse and install the configuration, rebuild the
        view, then raise TypesChanged; any exception ends the sequence where it
        is thrown and is swallowed. */
    method OnConfigFileChanged(read: Result<Json>, db: Database, viewRead: Result<Json>)
      modifies this, db
      ensures ReloadState(config, typesChanged, db.log, db.view)
           == Reload(ReloadState(old(config), old(typesChanged), old(db.log), old(db.view)), db.accepts, read, viewRead)
    {
      var loaded := LoadConfig(read);
      if loaded.Err? {
        return;
      }
      config := loaded.value;
      var rebuilt := RecreateProductsView(db, viewRead);
      if rebuilt.Fail? {
        return;
      }
      typesChanged := typesChanged + 1;
    }
  }
}

=== FILE: view_manager.dfy ===
/** ViewManager.RecreateProductsViewAsync: the SQL projection of the
    configured fields, rebuilt by dropping and re-creating ProductsView. */
module ViewManager {
  import opened Wrappers
  import opened Json
  import opened Text
  import opened Config
  import opened Lists

  const DropViewSql: string := "DROP VIEW IF EXISTS ProductsView;"

  /** The columns that follow the dynamic ones, in this order. */
  const Trailer: seq<string> := ["Data", "CreatedAt", "UpdatedAt"]

  /** What string.Join puts between two select entries. */
  const SelectSeparator: string := ",\n                "

  /** Declared types whose column is cast to a number. */
  predicate IsNumericCast(typeTag: string) {
    typeTag == "Decimal" || typeTag == "Float"
  }

  /** The `field.Type switch` that names a SQL column type. */
  function SqlType(typeTag: string): (r: string)
    ensures r == "REAL" <==> IsNumericCast(typeTag)
    ensures r == "INTEGER" <==> typeTag == "Int" || typeTag == "Boolean"
    ensures r == "TEXT" <==> !IsNumericCast(typeTag) && typeTag != "Int" && typeTag != "Boolean"
  {
    match typeTag
    case "Int" => "INTEGER"
    case "Decimal" => "REAL"
    case "Float" => "REAL"
    case "Boolean" => "INTEGER"
    case _ => "TEXT"
  }

  /** The path handed to SQLite: the declared path with every "$." removed,
      then prefixed with "$." again. */
  function ViewPath(jsonPath: string): (r: string)
    ensures |r| >= 2 && r[..2] == RootMarker && r[2..] == StripRoot(jsonPath)
  {
    RootMarker + StripRoot(jsonPath)
  }

  /** A leading marker makes no difference, a path without one is only
      prefixed, and a marker inside a path is cut out. */
  lemma ViewPathForms(a: string, b: string)
    ensures ViewPath(RootMarker + a) == ViewPath(a)
    ensures !ContainsRoot(a) ==> ViewPath(a) == RootMarker + a
    ensures ViewPath(a + RootMarker + b) == RootMarker + (StripRoot(a) + StripRoot(b))
  {
    StripRootLeading(a);
    assert ViewPath(RootMarker + a) == RootMarker + StripRoot(a);
    if !ContainsRoot(a) {
      StripRootWithoutMarker(a);
    }
    StripRootConcat(a, b);
  }

  /** The column expression of a field, as the loop body computes it. */
  function ColumnExpr(field: DynamicField): string {
    var sqlType := SqlType(field.typeTag);
    var jsonPathValue := StripRoot(field.jsonPath);
    if IsNumericCast(field.typeTag)
    then "CAST(json_extract(Data, '$." + jsonPathValue + "') AS " + sqlType + ")"
    else "json_extract(Data, '$." + jsonPathValue + "')"
  }

  /** The value at the field's path, cast to REAL for Decimal and Float fields
      and left uncast for every other type. */
  lemma ColumnExprForm(field: DynamicField)
    ensures IsNumericCast(field.typeTag) ==> ColumnExpr(field) == "CAST(json_extract(Data, '" + ViewPath(field.jsonPath) + "') AS REAL)"
    ensures !IsNumericCast(field.typeTag) ==> ColumnExpr(field) == "json_extract(Data, '" + ViewPath(field.jsonPath) + "')"
  {
  }

  /** One `<expr> as <Name>` entry of the select list. */
  function SelectEntry(field: DynamicField): (r: string)
    ensures EndsWithAlias(r, field.name)
  {
    var expr := ColumnExpr(field);
    assert expr + " as " + field.name == expr + (" as " + field.name);
    expr + " as " + field.name
  }

  /** The whole entry: the value at the field's path, cast to REAL for Decimal
      and Float fields, aliased with the field's name. */
  lemma SelectEntryForm(field: DynamicField)
    ensures IsNumericCast(field.typeTag) ==>
      SelectEntry(field) == "CAST(json_extract(Data, '" + ViewPath(field.jsonPath) + "') AS REAL) as " + field.name
    ensures !IsNumericCast(field.typeTag) ==>
      SelectEntry(field) == "json_extract(Data, '" + ViewPath(field.jsonPath) + "') as " + field.name
  {
    ColumnExprForm(field);
  }

  /** The select entry `e` names its column `name`. */
  predicate EndsWithAlias(e: string, name: string) {
    |e| >= |name| + 4 && e[|e| - |name| - 4..] == " as " + name
  }

  /** The select list of ProductsView for a definition set: `Id` first, then
      one entry per field in order, then Data, CreatedAt and UpdatedAt, so
      exactly four more entries than there are fields. */
  function SelectList(fields: seq<DynamicField>): (r: seq<string>)
    ensures |r| == |fields| + 4
    ensures r[0] == "Id"
    ensures forall i :: 0 <= i < |fields| ==> r[i + 1] == SelectEntry(fields[i])
    ensures r[|fields| + 1..] == ["Data", "CreatedAt", "UpdatedAt"]
  {
    var entries := Mapped(SelectEntry, fields);
    MappedAt(SelectEntry, fields);
    var list := ["Id"] + entries + Trailer;
    assert list[1..|fields| + 1] == entries;
    assert list[|fields| + 1..] == Trailer;
    list
  }

  /** With zero dynamic fields the view keeps only the fixed columns. */
  lemma EmptyConfigView()
    ensures SelectList(EmptyConfig.dynamicFields) == ["Id", "Data", "CreatedAt", "UpdatedAt"]
  {
  }

  /** A field of the default empty type is projected without a cast. */
  lemma DefaultTypeIsNotCast(name: string, jsonPath: string)
    ensures SelectEntry(DynamicField(name, "", jsonPath)) == "json_extract(Data, '$." + StripRoot(jsonPath) + "') as " + name
    ensures SqlType("") == "TEXT"
  {
  }

  /** The loop of RecreateProductsViewAsync that assembles `selectFields`. */
  method BuildSelectFields(config: ProductViewConfig) returns (selectFields: seq<string>)
    ensures selectFields == SelectList(config.dynamicFields)
  {
    var fields := config.dynamicFields;
    selectFields := ["Id"];
    var i := 0;
    while i < |fields|
      invariant 0 <= i <= |fields|
      invariant selectFields == ["Id"] + Mapped(SelectEntry, fields[..i])
    {
      var field := fields[i];
      selectFields := selectFields + [SelectEntry(field)];
      MappedStep(SelectEntry, fields, i);
      i := i + 1;
    }
    assert fields[..i] == fields;
    selectFields := selectFields + ["Data"];
    selectFields := selectFields + ["CreatedAt"];
    selectFields := selectFields + ["UpdatedAt"];
  }

  /** The text of the CREATE VIEW statement, whitespace included. */
  function CreateViewSql(selectFields: seq<string>): (r: string)
    ensures r != DropViewSql
  {
    var text := CreateViewHead + Join(SelectSeparator, selectFields) + CreateViewTail;
    assert text[0] == '\n' && DropViewSql[0] == 'D';
    text
  }

  /** The first column follows the statement head directly and the last one
      comes right before `FROM Products`. */
  lemma CreateViewColumns(selectFields: seq<string>)
    requires selectFields != []
    ensures var r := CreateViewSql(selectFields);
      |r| >= |CreateViewHead| + |selectFields[0]|
      && r[|CreateViewHead|..|CreateViewHead| + |selectFields[0]|] == selectFields[0]
    ensures var r := CreateViewSql(selectFields); var last := selectFields[|selectFields| - 1];
      |r| >= |last| + |CreateViewTail| && r[|r| - |CreateViewTail| - |last|..|r| - |CreateViewTail|] == last
  {
    JoinEnds(SelectSeparator, selectFields);
    Enclosed(CreateViewHead, Join(SelectSeparator, selectFields), CreateViewTail, selectFields[0], selectFields[|selectFields| - 1]);
  }

  /** The CREATE VIEW text for a definition set: `Id`, then every field's
      entry in order, then Data, CreatedAt and UpdatedAt, one separator between
      each two columns. */
  lemma CreateViewText(fields: seq<DynamicField>)
    ensures fields == [] ==>
      CreateViewSql(SelectList(fields)) == CreateViewHead + ("Id" + SelectSeparator + TrailerText) + CreateViewTail
    ensures fields != [] ==>
      CreateViewSql(SelectList(fields)) ==
        CreateViewHead + ("Id" + SelectSeparator + Join(SelectSeparator, Mapped(SelectEntry, fields)) + SelectSeparator + TrailerText) + CreateViewTail
  {
    var entries := Mapped(SelectEntry, fields);
    MappedAt(SelectEntry, fields);
    assert SelectList(fields) == ["Id"] + entries + Trailer;
    JoinTrailer();
    JoinFramed(SelectSeparator, "Id", entries, Trailer);
  }

  /** Joining a first value, a middle part and a non-empty end. */
  lemma JoinFramed(separator: string, first: string, middle: seq<string>, end: seq<string>)
    requires end != []
    ensures middle == [] ==> Join(separator, [first] + middle + end) == first + separator + Join(separator, end)
    ensures middle != [] ==>
      Join(separator, [first] + middle + end) == first + separator + Join(separator, middle) + separator + Join(separator, end)
  {
    if middle == [] {
      assert [first] + middle + end == [first] + end;
      JoinCons(separator, first, end);
    } else {
      JoinAppend(separator, [first] + middle, end);
      JoinCons(separator, first, middle);
    }
  }

  /** The fixed columns at the end of the select list, as joined text. */
  const TrailerText: string := "Data" + SelectSeparator + "CreatedAt" + SelectSeparator + "UpdatedAt"

  lemma JoinTrailer()
    ensures Join(SelectSeparator, Trailer) == TrailerText
  {
    JoinCons(SelectSeparator, "Data", ["CreatedAt", "UpdatedAt"]);
    JoinCons(SelectSeparator, "CreatedAt", ["UpdatedAt"]);
    assert Trailer == ["Data"] + ["CreatedAt", "UpdatedAt"];
    assert ["CreatedAt", "UpdatedAt"] == ["CreatedAt"] + ["UpdatedAt"];
  }

  /** Text placed between a head and a tail keeps its own first and last parts. */
  lemma Enclosed(head: string, body: string, tail: string, first: string, last: string)
    requires |body| >= |first| && body[..|first|] == first
    requires |body| >= |last| && body[|body| - |last|..] == last
    ensures var text := head + body + tail;
      text[|head|..|head| + |first|] == first && text[|text| - |tail| - |last|..|text| - |tail|] == last
  {
    var text := head + body + tail;
    assert text[|head|..|head| + |body|] == body;
  }

  const CreateViewHead: string := "\n" + "            CREATE VIEW ProductsView AS\n            SELECT \n                "
  const CreateViewTail: string := "\n            FROM Products;\n        "

  /** The two statements the core sends to the storage engine. */
  datatype Statement = DropViewIfExists | CreateView(selectFields: seq<string>)

  function Sql(stmt: Statement): string {
    match stmt
    case DropViewIfExists => DropViewSql
    case CreateView(selectFields) => CreateViewSql(selectFields)
  }

  /** The storage engine's answer to a statement: `accepts` is its verdict on the
      text, and CREATE VIEW also fails while a view of that name exists. `view`
      is the select list of the current ProductsView, None when there is none. */
  function Apply(accepts: string -> bool, view: Option<seq<string>>, stmt: Statement): (r: (Outcome, Option<seq<string>>))
    ensures r.0.Pass? ==> r.1 == (if stmt.DropViewIfExists? then None else Some(stmt.selectFields))
    ensures r.0.Fail? ==> r.1 == view && r.0.error == SqliteException
  {
    match stmt
    case DropViewIfExists =>
      if accepts(DropViewSql) then (Pass, None) else (Fail(SqliteException), view)
    case CreateView(selectFields) =>
      if view.None? && accepts(CreateViewSql(selectFields)) then (Pass, Some(selectFields))
      else (Fail(SqliteException), view)
  }

  /** The database behind `_context.Database`: the statements issued so far
      and the current definition of ProductsView. */
  class Database {
    var log: seq<string>
    var view: Option<seq<string>>
    const accepts: string -> bool

    constructor (accepts: string -> bool, view: Option<seq<string>>)
      ensures this.accepts == accepts && this.view == view && log == []
    {
      this.accepts := accepts;
      this.view := view;
      log := [];
    }

    /** ExecuteSqlRawAsync: the statement is logged whether or not it succeeds. */
    method Execute(stmt: Statement) returns (outcome: Outcome)
      modifies this
      ensures log == old(log) + [Sql(stmt)]
      ensures (outcome, view) == Apply(accepts, old(view), stmt)
    {
      log := log + [Sql(stmt)];
      var result := Apply(accepts, view, stmt);
      outcome := result.0;
      view := result.1;
    }
  }

  /** What one call of RecreateProductsViewAsync does: its outcome, the
      statements it issues, and the view it leaves. */
  datatype RebuildResult = RebuildResult(outcome: Outcome, issued: seq<string>, view: Option<seq<string>>)

  /** `source` is the outcome of reading and parsing the configuration file. */
  function Rebuild(accepts: string -> bool, view: Option<seq<string>>, source: Result<Json>): RebuildResult {
    match LoadConfig(source)
    case Err(e) => RebuildResult(Fail(e), [], view)
    case Ok(config) =>
      var (dropped, afterDrop) := Apply(accepts, view, DropViewIfExists);
      if dropped.Fail? then RebuildResult(dropped, [DropViewSql], afterDrop)
      else
        var selectFields := SelectList(config.dynamicFields);
        var (created, afterCreate) := Apply(accepts, afterDrop, CreateView(selectFields));
        RebuildResult(created, [DropViewSql, CreateViewSql(selectFields)], afterCreate)
  }

  /** RecreateProductsViewAsync: load the configuration, drop the view, build
      the select list and create the view again. */
  method RecreateProductsView(db: Database, source: Result<Json>) returns (outcome: Outcome)
    modifies db
    ensures var expected := Rebuild(db.accepts, old(db.view), source);
      outcome == expected.outcome && db.log == old(db.log) + expected.issued && db.view == expected.view
  {
    var loaded := LoadConfig(source);
    if loaded.Err? {
      return Fail(loaded.error);
    }
    var config := loaded.value;
    outcome := db.Execute(DropViewIfExists);
    if outcome.Fail? {
      return;
    }
    var selectFields := BuildSelectFields(config);
    outcome := db.Execute(CreateView(selectFields));
  }

  /** A configuration that cannot be read or bound issues no statement and
      leaves the view as it was. */
  lemma RecreateLoadFailure(accepts: string -> bool, view: Option<seq<string>>, source: Result<Json>)
    requires LoadConfig(source).Err?
    ensures Rebuild(accepts, view, source) == RebuildResult(Fail(LoadConfig(source).error), [], view)
  {
  }

  /** DROP is issued first and once; CREATE at most once, and only after it. */
  lemma DropBeforeCreate(accepts: string -> bool, view: Option<seq<string>>, source: Result<Json>)
    requires LoadConfig(source).Ok?
    ensures var r := Rebuild(accepts, view, source);
      1 <= |r.issued| <= 2 && r.issued[0] == DropViewSql
      && (|r.issued| == 2 <==> accepts(DropViewSql))
      && (|r.issued| == 2 ==> r.issued[1] == CreateViewSql(SelectList(LoadConfig(source).value.dynamicFields))
                              && r.issued[1] != DropViewSql)
  {
  }

  /** The rebuild succeeds exactly when both statements are accepted, and then
      the view's select list is the configured one. */
  lemma RecreateSuccess(accepts: string -> bool, view: Option<seq<string>>, source: Result<Json>)
    ensures var r := Rebuild(accepts, view, source);
      r.outcome.Pass? <==>
        LoadConfig(source).Ok? && accepts(DropViewSql)
        && accepts(CreateViewSql(SelectList(LoadConfig(source).value.dynamicFields)))
    ensures var r := Rebuild(accepts, view, source);
      r.outcome.Pass? ==> r.view == Some(SelectList(LoadConfig(source).value.dynamicFields))
  {
    var loaded := LoadConfig(source);
    if loaded.Ok? && accepts(DropViewSql) {
      var selectFields := SelectList(loaded.value.dynamicFields);
      assert Apply(accepts, view, DropViewIfExists) == (Pass, None);
      assert Rebuild(accepts, view, source) == RebuildResult(
        Apply(accepts, None, CreateView(selectFields)).0,
        [DropViewSql, CreateViewSql(selectFields)],
        Apply(accepts, None, CreateView(selectFields)).1);
    }
  }

  /** Not atomic: a rejected CREATE after a successful DROP leaves no view. */
  lemma RecreateNotAtomic(accepts: string -> bool, view: Option<seq<string>>, source: Result<Json>)
    requires LoadConfig(source).Ok? && accepts(DropViewSql)
    requires !accepts(CreateViewSql(SelectList(LoadConfig(source).value.dynamicFields)))
    ensures Rebuild(accepts, view, source).outcome.Fail?
    ensures Rebuild(accepts, view, source).view == None
  {
  }

  /** Rebuilding again from the same configuration leaves the same view. */
  lemma RecreateIdempotent(accepts: string -> bool, view: Option<seq<string>>, source: Result<Json>)
    requires Rebuild(accepts, view, source).outcome.Pass?
    ensures var once := Rebuild(accepts, view, source);
      Rebuild(accepts, once.view, source).view == once.view
      && Rebuild(accepts, once.view, source).outcome.Pass?
  {
    RecreateSuccess(accepts, view, source);
    RecreateSuccess(accepts, Rebuild(accepts, view, source).view, source);
  }
}

=== FILE: wrappers.dfy ===
/** Failure-carrying datatypes shared by the whole model. */
module Wrappers {

  datatype Option<+T> = None | Some(value: T)

  /** The kinds of .NET exception the projection core can raise or swallow. */
  datatype Exception =
    | JsonException       // System.Text.Json could not bind a value
    | InvalidOperation    // a JsonElement accessor used on the wrong kind of element
    | IoException         // the configuration file could not be read
    | SqliteException     // the storage engine rejected a statement

  /** A value, or the exception that was thrown instead of producing it. */
  datatype Result<+T> = Ok(value: T) | Err(error: Exception) {
    predicate IsFailure() { Err? }

    function PropagateFailure<U>(): Result<U>
      requires Err?
    {
      Err(error)
    }

    function Extract(): T
      requires Ok?
    {
      value
    }
  }

  /** The completion of an operation that returns nothing. */
  datatype Outcome = Pass | Fail(error: Exception)
}
